=== FILE: README.md ===
# SportsCalendar tournament catalog — a Dafny model

SportsCalendar is a small service that keeps sports tournament records in
one SQLite table. It lists and filters them over HTTP and exports them to
CSV and JSON. At start-up it seeds an empty table with generated sample
tournaments.

This project models the sequential logic of that service:

- **The tournament data collector** (`collector.dfy`):
  - the two fixed enumerations of sports and levels;
  - the record validator, including Python's `strptime(_, '%Y-%m-%d')` and
    the Gregorian calendar (`calendar.dfy`);
  - the template-driven sample generator, with its fourteen readings of
    the current date and the random day offsets as parameters.
- **The tournament store** (`database.py`), modelled as a sequence of rows
  in insertion order plus the AUTOINCREMENT counter (`database.dfy`):
  - insert;
  - the unfiltered query and the filter query, both ordered by `start_date`
    under SQLite's BINARY collation (`text.dfy`);
  - the JSON text the links column holds (`links_json.dfy`).
- **The HTTP layer** (`api.dfy`):
  - the list endpoint's choice of query and its count;
  - the two fixed lists;
  - the record-to-row mappings of the CSV and JSON exports.
- **Start-up seeding** (`seeding.dfy`): `initialize_data` as a transition on
  the store.

`wrappers.dfy` holds the `Option` and `Result` types. An exception the
source raises becomes a `Failure`:

- `KeyError` in insert is `InsertError`.
- A `json.loads` failure in a query is `QueryError`.
- `OverflowError` in the generator is `GenerateError`.
- The `ValueError` of `strptime` is `DateError`; the validator turns it
  into `false`.

Three behaviours of the code a reader may not expect:

- **Filter with no arguments.** With no truthy argument the filter query
  returns the rows of the unfiltered query *without* `created_at` and
  `updated_at` (`Database.FilterWithoutArguments`).
- **Date spellings.** The validator accepts more than `YYYY-MM-DD`. `%m`
  and `%d` also take one digit, and `%d` takes a space followed by one
  digit (`Calendar.StrptimeSpellingExamples`).
- **The start-up count.** The figure reported after seeding is the number
  of generated records, not the number inserted (`Seeding.InitializeData`).

## Model

| member | source | states |
|---|---|---|
| Calendar.DaysInMonth | src/data_collector.py:91-92 | A month has 28 to 31 days. It has 29 exactly in February of a Gregorian leap year, 28 exactly in February otherwise, and 30 exactly in April, June, September and November. |
| Calendar.AddDays | src/data_collector.py:51-52 | `d + timedelta(days=n)`: a calendar day whose proleptic ordinal is `n` more than `d`'s, never in an earlier year. |
| Calendar.OrdinalInjective | src/data_collector.py:51-52 | Two calendar days with the same ordinal are the same day, so `AddDays` determines its result. |
| Calendar.IsoFormat | src/data_collector.py:58-59 | `strftime('%Y-%m-%d')` is ten characters: digits, with dashes at positions 4 and 7. |
| Calendar.Strptime | src/data_collector.py:91-92 | Every date `strptime` returns is a real date with year 1 to 9999. |
| Calendar.StrptimeCharacterised | src/data_collector.py:91-92 | `strptime` reads `s` as date `d` exactly when `d` is valid and `s` is one of `d`'s spellings: four-digit year, then month and day in two digits or (below 10) one digit, with the day also allowed as a space and one digit. |
| Calendar.StrptimeReadsSpelling | src/data_collector.py:91-92 | Every spelling of a valid date is read back as that date. |
| Calendar.StrptimeOnlySpellings | src/data_collector.py:91-92 | Whatever `strptime` accepts is a spelling of the date it returns: no other shape passes. |
| Calendar.IsoFormatRoundTrip | src/data_collector.py:58-59 | A date written by `strftime('%Y-%m-%d')` is read back by the validator's `strptime` as the same date. |
| Calendar.Pad4RoundTrip | src/data_collector.py:58 | The four-digit year field reads back as the year. |
| Calendar.FourDigitRoundTrip | src/data_collector.py:91 | Four digits read as a year are written back as the same four digits. |
| Calendar.MatchMonth | src/data_collector.py:91-92 | The `%m` field reads a month from 1 to 12 from one or two leading characters. |
| Calendar.MatchDay | src/data_collector.py:91-92 | The `%d` field reads a day from 1 to 31 from one or two leading characters. |
| Calendar.MatchMonthSpelling | src/data_collector.py:91-92 | Every spelling of a month, followed by the dash, is read back as that month, consuming exactly the spelling. |
| Calendar.MatchDaySpelling | src/data_collector.py:91-92 | Every spelling of a day is read back as that day, consuming exactly the spelling. |
| Calendar.MonthMatchIsSpelling | src/data_collector.py:91-92 | Whatever the `%m` field consumes is a spelling of the month it returns. |
| Calendar.DayMatchIsSpelling | src/data_collector.py:91-92 | Whatever the `%d` field consumes is a spelling of the day it returns. |
| Calendar.StrptimeNoMatchExamples | src/data_collector.py:90-94 | `"13-13-2025"` and month 13 do not match the pattern. |
| Calendar.StrptimeRangeExamples | src/data_collector.py:90-94 | 29 February 2023 is out of range; 29 February 2024 is read. |
| Calendar.StrptimeCenturyExamples | src/data_collector.py:90-94 | 29 February 1900 and year 0 are out of range. |
| Calendar.StrptimeSpellingExamples | src/data_collector.py:90-94 | One-digit and space-padded fields are read; a trailing character after the day is unconverted data. |
| Text.TextLeIsLexicographic | src/database.py:68 | `Text.TextLe`, the BINARY order on text, holds exactly when one string is a prefix of the other or is smaller at the first difference. |
| Text.TextLeReflexive | src/database.py:68 | Every start date is in order with itself. |
| Text.TextLeTotal | src/database.py:68 | Any two start dates are comparable. |
| Text.TextLeTransitive | src/database.py:68 | The order on start dates is transitive. |
| Text.TextLeAntisymmetric | src/database.py:68 | Two start dates each no greater than the other are equal. |
| Text.Join | src/api.py:76 | `', '.join(xs)` is empty for no links, the link itself for one, and otherwise starts with the first link. |
| Text.JoinLength | src/api.py:76 | A joined cell is the links' total length plus the separator between each pair of neighbours. |
| Text.JoinAppend | src/api.py:76 | Joining one more link appends the separator and that link: the cell is the links in order with the separator between neighbours. |
| Text.LowerAscii | src/data_collector.py:60-62 | `str.lower()` maps each character on its own, keeps the length and leaves no upper-case letter. |
| Text.ReplaceChar | src/data_collector.py:60 | `replace(' ', '-')` changes exactly the spaces, keeps the length and leaves no space. |
| LinksJson.Encode | src/database.py:53 | `json.dumps` of a list is text in square brackets. |
| LinksJson.Decode | src/database.py:81 | The modelled `json.loads` reads a list only from text that opens with `[` and closes with `]`. |
| LinksJson.RoundTrip | src/database.py:53 | The links list stored by `json.dumps` is read back by `json.loads` as the same list in the same order. |
| LinksJson.EncodeInjective | src/database.py:53 | Distinct links lists are stored as distinct text. |
| Collector.FirstUnfilled | src/data_collector.py:83-87 | The required-field loop stops at a field that is absent or empty, and runs through only when all five are present and non-empty. |
| Collector.Validate | src/data_collector.py:81-103 | The validator returns true exactly when all five required keys are present and non-empty, both dates are accepted by `strptime`, the sport is in the sports list and the level is in the levels list; a missing or empty required key alone means false. |
| Collector.ValidateAcceptsExample | src/data_collector.py:81-103 | The complete "Test Cup" Chess/State record passes. |
| Collector.ValidateAcceptsReversedDates | src/data_collector.py:90-94 | An end date before the start date still passes: the order of the dates is not checked. |
| Collector.FullRecordValidates | src/data_collector.py:81-103 | A record with a non-empty name, listed sport and level and two accepted dates passes. |
| Collector.ValidateRejectsMissingExample | src/data_collector.py:83-87 | A record without `level`, or with an empty level, is rejected. |
| Collector.ValidateRejectsDateExample | src/data_collector.py:90-94 | `"13-13-2025"` as start date and 29 February 2023 as end date are rejected without raising. |
| Collector.ValidateRejectsNameExample | src/data_collector.py:96-101 | "Darts", "chess" and "state" are rejected: membership is exact and case-sensitive. |
| Collector.TemplatesWellFormed | src/data_collector.py:24-47 | There are fourteen templates; each names a listed sport and level and a non-empty name, and lasts at most 180 days. |
| Collector.SampleFor | src/data_collector.py:51-64 | One template's record: it succeeds exactly when the end date stays within year 9999. It then carries the template's name and level, the owning sport and the three streaming partners, the official URL built from the name, the image URL built from the sport, and the description. Its start date reads back `offset` days after today and its end date reads back `duration` days after the start. |
| Collector.SampleUrls | src/data_collector.py:60-62 | `SampleRecord`'s official URL is the site prefix and the template name lower-cased with spaces turned into dashes, holding no space or capital. Its image URL is the lower-cased sport's `.jpg` under the images path. |
| Collector.SampleValidates | src/data_collector.py:54-64 | A record built from a well-formed template passes the validator. |
| Collector.FirstFailure | src/data_collector.py:49-65 | The loop's outcome: all records when every step succeeds, otherwise the error of a failing step. |
| Collector.GenerateFrom | src/data_collector.py:49-65 | Over any list of templates, with one clock reading and one offset per template: one record per template in order, each the sample for its template dated from its own reading, with the template's URLs and description. It fails exactly when some end date passes year 9999. |
| Collector.GenerateSampleTournaments | src/data_collector.py:19-67 | The generator yields fourteen records, one per template in template order. Each is the sample for its template, dated from the clock reading taken for it, with the template's URLs and description. It raises exactly when some end date passes year 9999. |
| Collector.GeneratedRecordsValidate | src/data_collector.py:19-67 | Every generated record passes the validator. |
| Collector.GenerateSucceeds | src/data_collector.py:51-52 | With every clock reading no later than year 9997, generation does not overflow. |
| Collector.EndDayBound | src/data_collector.py:51-52 | An end date at most 365 + 180 days ahead is at most two years later. |
| Database.ReadLinks | src/database.py:81 | A non-empty links cell reads back only when it holds a bracketed list. |
| Database.StoredLinksRoundTrip | src/database.py:81 | A stored links list reads back unchanged through `Database.ReadLinks`; a NULL or empty cell reads back as the empty list. |
| Database.Insert | src/database.py:36-61 | Insert succeeds exactly when name, sport, level, start date and end date are present; a failure names an absent one. On success it returns a new id above the counter, makes it the counter, appends one row under that id and leaves the earlier rows unchanged. |
| Database.InsertDefaults | src/database.py:47-55 | The new row, `Database.NewRow`, holds the record's required values, `''` for an absent URL, image or summary, a links cell that reads back as the record's list (`[]` when absent) and `now` as both timestamps. |
| Database.InsertPreservesValid | src/database.py:18 | Insert keeps the store invariant (ids increase along insertion order, none above the counter, every links cell readable); the new id exceeds every earlier id. |
| Database.InsertDoesNotValidate | src/database.py:47-51 | Insert stores a record the validator rejects: it checks presence only. |
| Database.ViewAll | src/database.py:72-87 | Row-to-dictionary mapping: it succeeds exactly when every links cell decodes, and then yields one view per row in order. A failure names a row whose links do not decode. |
| Database.UnstampedAll | src/database.py:115-126 | The filter query's dictionaries are the unfiltered query's without the two timestamps, one for one. |
| Database.SortRows | src/database.py:68 | `ORDER BY start_date` returns a permutation of the rows. |
| Database.SortRowsSorted | src/database.py:68 | The sorted rows are non-decreasing in `start_date` under the BINARY order. |
| Database.InsortSorted | src/database.py:68 | Inserting one row into sorted rows keeps them sorted. |
| Database.SelectRowsMembers | src/database.py:97-107 | The WHERE clause keeps exactly the rows whose sport equals the truthy sport argument and whose level equals the truthy level argument. |
| Database.SelectSort | src/database.py:97-108 | Selecting the sorted rows gives the sorted selection: the filter query's order is the unfiltered one restricted. |
| Database.GetAll | src/database.py:63-90 | The unfiltered query raises exactly when some stored links cell does not decode. Otherwise it returns one tournament per stored row, in start-date order, each with its timestamps. |
| Database.FilterTournaments | src/database.py:92-130 | The filter query raises exactly when some matching row's links cell does not decode. Otherwise it returns one tournament per matching row, in start-date order, each meeting the condition and without timestamps. |
| Database.GetAllSpec | src/database.py:63-90 | The unfiltered query succeeds exactly when every links cell decodes. It then returns every stored row once, each with its links decoded and its timestamps, sorted by start date. |
| Database.ViewSelect | src/database.py:92-130 | Viewing the selected rows without timestamps is selecting the viewed rows and dropping their timestamps. |
| Database.FilterIsSelectionOfGetAll | src/database.py:92-130 | On a readable table the filter query returns the unfiltered query's tournaments that meet the condition, in the same order, without timestamps. |
| Database.SelectNothing | src/database.py:97-107 | With neither argument truthy no condition is added. |
| Database.FilterWithoutArguments | src/database.py:115-126 | With neither argument truthy the filter query returns the unfiltered result without the timestamps. |
| Database.EmptyStoreQueries | src/database.py:63-130 | Both queries on an empty table return the empty list, not an error. |
| Database.GetAllContains | src/database.py:63-90 | Every stored row of a readable table appears in the unfiltered result. |
| Database.InsertThenGetAll | src/database.py:36-90 | After an insert, the unfiltered query contains the record's tournament under its new id. It carries the record's values, the defaults for absent optional keys, its links in order and `now` as both timestamps. |
| Database.InsertExample | src/database.py:36-90 | Inserting the five-key "Test Cup" record into a fresh table gives id 1, and it reads back as the only tournament, with `''` for the absent texts and no links. |
| Api.ListTournaments | src/api.py:15-30 | The list endpoint uses the filter query when sport or level is truthy and the unfiltered query otherwise. The status is "success" and the count is the number of tournaments returned. |
| Api.ListIsSelection | src/api.py:18-24 | On a readable table the endpoint returns the unfiltered tournaments that meet the condition, timestamps dropped exactly when an argument is truthy. |
| Api.ListedTournamentsMatch | src/api.py:21-22 | Every tournament returned has the requested sport and level. |
| Database.SelectTournamentsMembers | src/database.py:100-106 | Selection over tournaments keeps exactly those meeting the condition. |
| Api.GetSports | src/api.py:33-40 | `/api/sports` returns the validator's sports list, same strings in the same order. |
| Api.GetLevels | src/api.py:43-49 | `/api/levels` returns the validator's levels list, same strings in the same order. |
| Api.EndpointListsAgreeWithValidator | src/api.py:35-48 | A record the validator accepts names an offered sport and level. Twelve sports and nine levels are offered, none repeated. |
| Api.ExportCsv | src/api.py:52-81 | The CSV is the nine-label header, then one row per tournament of the unfiltered query, in that order. |
| Api.ExportJson | src/api.py:84-109 | The JSON export holds one nine-label object per tournament of the unfiltered query, in that order. |
| Api.CsvRow | src/api.py:69-79 | A CSV data row has a cell under every header label. Its links cell is empty exactly when there is no link or one empty link. |
| Api.JsonObject | src/api.py:94-104 | A JSON export object holds the nine header labels as its keys, in header order. |
| Api.ExportsAgree | src/api.py:69-104 | Both exports use the same labels in the same order and the same value under every label but the links, which CSV joins and JSON keeps as a list. |
| Api.LabelsDistinct | src/api.py:60-64 | The nine labels are distinct. |
| Api.CsvLinksCell | src/api.py:76 | The links cell is `""` for no links, the link for one, and otherwise as long as the links plus two characters between each pair of neighbours. |
| Api.JsonExportKeepsInsertedLinks | src/api.py:92-104 | An inserted record's object is in the JSON export, with its values, `''` defaults and its links as the same list in the same order. |
| Seeding.KeptAccepted | main.py:35-37 | The records the loop inserts are exactly the ones the validator accepts. Each kept pair is a generated record with its own timestamp, taken at strictly increasing generator positions, so generator order is kept. A position is taken exactly when the validator accepts its record, so a repeated accepted pair is kept each time. |
| Seeding.RepeatedPairsKept | main.py:35-37 | An accepted record generated twice with the same timestamp is inserted twice. |
| Seeding.InsertValid | main.py:35-40 | The insert loop keeps every stored row in place, adds at most one row per generated record, and moves the id counter on by one per added row. |
| Seeding.NewRowsAt | main.py:35-37 | The rows the loop's inserts append: the k-th kept record, with its stamp, becomes the row insert_tournament stores under id first + k. |
| Seeding.InsertValidAppendsKept | main.py:35-40 | The insert loop appends exactly the accepted records in generator order, under consecutive fresh ids, and changes nothing already stored. |
| Seeding.InitializeData | main.py:13-44 | Start-up fails exactly when the unfiltered query does. It seeds only a table that query finds empty, reporting the number of generated records; otherwise it leaves the store unchanged and reports the rows present. |
| Seeding.InitializeEmpty | main.py:25-42 | From an empty table, start-up stores exactly the accepted records as rows after the counter and reports the generated count. |
| Seeding.NewRowValidates | main.py:36-37 | A row stored for an accepted record passes the validator when read back. |
| Seeding.NewRowsValid | main.py:35-37 | The seeded rows form a valid store whose ids count up from the counter. |
| Seeding.NewRowsAccepted | main.py:35-37 | Every seeded row passes the validator when read back. |
| Seeding.SeedingFromEmpty | main.py:25-42 | After seeding from empty the store is valid, and every row passes the validator. There is one row per accepted record, ids increase along generator order, and the reported figure is the generated count, no less than the rows added. |
| Seeding.InvalidRecordSkipped | main.py:35-40 | An invalid record is skipped and the records after it are still inserted. |
| Seeding.AllKept | main.py:35-37 | When every record passes, every record is inserted. |
| Seeding.SeedFromGenerator | main.py:31-42 | With every clock reading of the generator no later than year 9997, seeding an empty table inserts fourteen rows and reports fourteen. |

## Left out

- Database, api and main I/O: SQLite connections and SQL text, commits,
  Flask routing, `render_template`, `jsonify`, `os.makedirs` and the file
  writes are not modelled. The queries are functions on the row sequence.
  The exports return the rows or objects they would write.
- CSV quoting by `csv.DictWriter` and the layout of `json.dump` (indent,
  `ensure_ascii=False`) are not modelled. Only the record-to-row mapping is.
  The `", "` join is not claimed to be invertible, because links may
  contain `", "`.
- `CURRENT_TIMESTAMP` is a parameter: one string per insert.
- `datetime.now()` is read once per template, and each reading is a date
  parameter of its own, so a run that crosses midnight is covered. Nothing
  is assumed about how the readings relate to one another. The time of day
  does not affect the `%Y-%m-%d` output and is left out.
  `random.randint(1, 365)` becomes a parameter: one offset per template.
- Ties in `start_date` are ordered by insertion in the model. SQLite leaves
  their order unspecified; the properties stated about order (sortedness,
  permutation, filter as selection of the unfiltered order) hold for any
  stable sort.
- SQLite's rowid maximum, and the `SQLITE_FULL` error after it, are not
  modelled: the counter is unbounded.
- `init_database` and the schema text are not modelled. Only the id rule
  and the column set are.
- Database.Insert: the failure names one absent required key, not
  necessarily the first one Python looks up.
- Database.ReadLinks: `json.loads` is modelled for the layout `json.dumps`
  writes for a list of strings. Other JSON values, extra whitespace and
  `\uXXXX` escapes are treated as undecodable.
- LinksJson.Decode: `json.loads` also skips whitespace around the value
  and reads values other than lists. The model reads only a bracketed list
  of strings in the layout `json.dumps` writes.
- LinksJson.Encode: `json.dumps` writes control characters other than
  `\b \f \n \r \t` and, by default, non-ASCII characters as `\uXXXX`. The
  model escapes only `" \ \b \f \n \r \t` and writes the other characters
  as they are. The round trip still holds.
- Calendar.Strptime: `\d` in Python's regular expressions also matches
  non-ASCII decimal digits. The model accepts ASCII digits only.
- Calendar.IsoFormat: `strftime('%Y')` for years below 1000 is
  platform-dependent. The model writes four zero-padded digits, which is
  what `strptime` reads back.
- Text.LowerAscii: `str.lower()` lowers every Unicode letter. The model
  lowers ASCII letters only; every template name and sport is ASCII.
- Collector.Record: field values are strings (links a list of strings), and
  a present key is never `None`. Non-string values, for which the source
  raises `TypeError` from `strptime` rather than returning false, are not
  modelled.
- NULL in the optional text columns other than `streaming_links` cannot
  arise through the modelled insert and is not modelled.
- `collect_real_tournament_data` only delegates to the generator and is
  not modelled separately. The unused `requests` import is not modelled.
- Console messages of `initialize_data` are not modelled, apart from the
  reported count. `main()`'s server start-up and KeyboardInterrupt handling
  are not modelled either.
- `src/ui/static/script.js` is not part of this model: it is a browser UI
  of DOM updates and locale-dependent date display.

=== FILE: api.dfy ===
/** The service's HTTP layer, reduced to what it computes: the list
    endpoint's choice of query and its count, the two fixed lists, and the
    record-to-row mapping of the CSV and JSON exports. */
module Api {
  import opened Wrappers
  import opened Text
  import opened Collector
  import opened Database

  // ---------------------------------------------------------------------
  // GET /api/tournaments

  /** The JSON body the list endpoint returns. */
  datatype ListResponse = ListResponse(status: string, count: nat, tournaments: seq<Tournament>)

  /** `get_tournaments`: the filter query when either argument is truthy,
      otherwise the unfiltered query; the reported count is the length of
      the returned list. A raising query is passed on. */
  function ListTournaments(store: Store, sport: Option<string>, level: Option<string>): (r: Result<ListResponse, QueryError>)
    ensures r.Success? ==> r.value.status == "success" && r.value.count == |r.value.tournaments|
    ensures (Filled(sport) || Filled(level)) ==>
      && (r.Success? <==> FilterTournaments(store, sport, level).Success?)
      && (r.Success? ==> r.value.tournaments == FilterTournaments(store, sport, level).value)
    ensures !(Filled(sport) || Filled(level)) ==>
      && (r.Success? <==> GetAll(store).Success?)
      && (r.Success? ==> r.value.tournaments == GetAll(store).value)
  {
    var result := if Filled(sport) || Filled(level) then FilterTournaments(store, sport, level) else GetAll(store);
    match result
    case Failure(e) => Failure(e)
    case Success(ts) => Success(ListResponse("success", |ts|, ts))
  }

  /** On a readable table the list endpoint returns the tournaments of the
      unfiltered query that meet the condition, in the same order; they
      carry their timestamps exactly when no argument is truthy. */
  lemma ListIsSelection(store: Store, sport: Option<string>, level: Option<string>)
    requires Readable(store.rows)
    ensures GetAll(store).Success? && ListTournaments(store, sport, level).Success?
    ensures var ts := ListTournaments(store, sport, level).value.tournaments;
      var selected := SelectTournaments(GetAll(store).value, sport, level);
      ts == if Filled(sport) || Filled(level) then UnstampedAll(selected) else selected
  {
    FilterIsSelectionOfGetAll(store, sport, level);
    if !(Filled(sport) || Filled(level)) {
      SelectNothing(GetAll(store).value, sport, level);
    }
  }

  /** Every tournament the list endpoint returns meets the condition given
      by the truthy arguments. */
  lemma ListedTournamentsMatch(store: Store, sport: Option<string>, level: Option<string>)
    requires Readable(store.rows)
    ensures ListTournaments(store, sport, level).Success?
    ensures forall t :: t in ListTournaments(store, sport, level).value.tournaments ==>
      (Filled(sport) ==> t.sport == sport.value) && (Filled(level) ==> t.level == level.value)
  {
    ListIsSelection(store, sport, level);
    var selected := SelectTournaments(GetAll(store).value, sport, level);
    SelectTournamentsMembers(GetAll(store).value, sport, level);
    forall t | t in ListTournaments(store, sport, level).value.tournaments
      ensures (Filled(sport) ==> t.sport == sport.value) && (Filled(level) ==> t.level == level.value)
    {
      if Filled(sport) || Filled(level) {
        var i :| 0 <= i < |UnstampedAll(selected)| && UnstampedAll(selected)[i] == t;
        assert selected[i] in selected;
      }
    }
  }

  // ---------------------------------------------------------------------
  // GET /api/sports and GET /api/levels

  /** The list `get_sports` returns, written out in the endpoint itself. */
  function GetSports(): (r: seq<string>)
    ensures r == Sports
  {
    ["Cricket", "Football", "Badminton", "Running", "Gym",
     "Cycling", "Swimming", "Kabaddi", "Yoga", "Basketball",
     "Chess", "Table Tennis"]
  }

  /** The list `get_levels` returns, written out in the endpoint itself. */
  function GetLevels(): (r: seq<string>)
    ensures r == Levels
  {
    ["Corporate", "School", "College/University", "Club/Academy",
     "District", "State", "Zonal/Regional", "National", "International"]
  }

  /** A record the validator accepts names a sport and a level the
      endpoints offer; the endpoints offer twelve sports and nine levels,
      none repeated. */
  lemma EndpointListsAgreeWithValidator(t: Record)
    requires Filled(t.sport) && Filled(t.level)
    ensures Validate(t) ==> t.sport.value in GetSports() && t.level.value in GetLevels()
    ensures |GetSports()| == 12 && |GetLevels()| == 9
    ensures forall i, j :: 0 <= i < j < |GetSports()| ==> GetSports()[i] != GetSports()[j]
    ensures forall i, j :: 0 <= i < j < |GetLevels()| ==> GetLevels()[i] != GetLevels()[j]
  {
  }

  // ---------------------------------------------------------------------
  // GET /api/export/csv and GET /api/export/json

  /** The nine column labels both exports use, in column order. */
  const Labels: seq<string> := [
    "Tournament Name", "Sport", "Level", "Start Date", "End Date",
    "Tournament Official URL", "Streaming Partners/Links",
    "Tournament Image", "Summary of Tournament"
  ]

  /** The column of the streaming links. */
  const LinksColumn := 6

  /** The separator the CSV export joins links with. */
  const LinkSeparator := ", "

  /** One CSV data row: the cells under the nine labels, the links joined
      into one cell. The row has a cell for every label, and its links cell
      is empty exactly when there is no link or a single empty one. */
  function CsvRow(t: Tournament): (r: seq<string>)
    ensures |r| == |Labels|
    ensures r[LinksColumn] == "" <==> |t.links| == 0 || t.links == [""]
  {
    var links := Join(t.links, LinkSeparator);
    assert links == "" <==> |t.links| == 0 || t.links == [""] by {
      if |t.links| >= 1 {
        JoinLength(t.links, LinkSeparator);
      }
    }
    [t.name, t.sport, t.level, t.startDate, t.endDate, t.officialUrl,
     links, t.imageUrl, t.summary]
  }

  /** The rows `export_csv` writes: the header, then one row per tournament
      in the order of the unfiltered query. */
  function ExportCsv(store: Store): (r: Result<seq<seq<string>>, QueryError>)
    ensures r.Success? <==> GetAll(store).Success?
    ensures r.Success? ==>
      && |r.value| == |GetAll(store).value| + 1
      && r.value[0] == Labels
      && forall i :: 0 <= i < |GetAll(store).value| ==> r.value[i + 1] == CsvRow(GetAll(store).value[i])
  {
    match GetAll(store)
    case Failure(e) => Failure(e)
    case Success(ts) => Success([Labels] + seq(|ts|, i requires 0 <= i < |ts| => CsvRow(ts[i])))
  }

  /** A value in the JSON export: text, or the links as a list. */
  datatype ExportValue = Str(s: string) | StrList(xs: seq<string>)

  /** One JSON export object: the nine labels with their values, links
      kept as the list. */
  function JsonObject(t: Tournament): (r: seq<(string, ExportValue)>)
    ensures |r| == |Labels| && forall k :: 0 <= k < |Labels| ==> r[k].0 == Labels[k]
  {
    [("Tournament Name", Str(t.name)),
     ("Sport", Str(t.sport)),
     ("Level", Str(t.level)),
     ("Start Date", Str(t.startDate)),
     ("End Date", Str(t.endDate)),
     ("Tournament Official URL", Str(t.officialUrl)),
     ("Streaming Partners/Links", StrList(t.links)),
     ("Tournament Image", Str(t.imageUrl)),
     ("Summary of Tournament", Str(t.summary))]
  }

  /** The objects `export_json` writes, one per tournament in the order of
      the unfiltered query. */
  function ExportJson(store: Store): (r: Result<seq<seq<(string, ExportValue)>>, QueryError>)
    ensures r.Success? <==> GetAll(store).Success?
    ensures r.Success? ==>
      && |r.value| == |GetAll(store).value|
      && forall i :: 0 <= i < |r.value| ==> r.value[i] == JsonObject(GetAll(store).value[i])
  {
    match GetAll(store)
    case Failure(e) => Failure(e)
    case Success(ts) => Success(seq(|ts|, i requires 0 <= i < |ts| => JsonObject(ts[i])))
  }

  /** The two exports use the same labels in the same order and the same
      value under every label but the links: the CSV cell holds the links
      joined by `", "`, the JSON value holds the list itself. */
  lemma ExportsAgree(t: Tournament)
    ensures |JsonObject(t)| == |CsvRow(t)| == |Labels|
    ensures forall k :: 0 <= k < |Labels| ==> JsonObject(t)[k].0 == Labels[k]
    ensures forall k :: 0 <= k < |Labels| && k != LinksColumn ==> JsonObject(t)[k].1 == Str(CsvRow(t)[k])
    ensures JsonObject(t)[LinksColumn].1 == StrList(t.links)
    ensures CsvRow(t)[LinksColumn] == Join(t.links, LinkSeparator)
  {
  }

  /** The labels are distinct, so each export object is a dictionary. */
  lemma LabelsDistinct()
    ensures forall i, j :: 0 <= i < j < |Labels| ==> Labels[i] != Labels[j]
  {
  }

  /** The links cell of the CSV: empty for no links, the link itself for
      one, and otherwise every link in order with `", "` between neighbours. */
  lemma CsvLinksCell(t: Tournament)
    ensures |t.links| == 0 ==> CsvRow(t)[LinksColumn] == ""
    ensures |t.links| == 1 ==> CsvRow(t)[LinksColumn] == t.links[0]
    ensures |t.links| >= 1 ==> |CsvRow(t)[LinksColumn]| == TotalLength(t.links) + 2 * (|t.links| - 1)
  {
    if |t.links| >= 1 {
      JoinLength(t.links, LinkSeparator);
    }
  }

  /** A record stored through the insert has its object in the JSON export,
      with its values, `''` for absent texts, and its links list unchanged
      and in order. */
  lemma JsonExportKeepsInsertedLinks(store: Store, t: Record, now: string)
    requires Valid(store)
    requires Insert(store, t, now).Success?
    ensures ExportJson(Insert(store, t, now).value.0).Success?
    ensures var (s', id) := Insert(store, t, now).value;
      JsonObject(Tournament(id, t.name.value, t.sport.value, t.level.value,
                            t.startDate.value, t.endDate.value,
                            t.officialUrl.GetOr(""), t.streamingLinks.GetOr([]),
                            t.imageUrl.GetOr(""), t.summary.GetOr(""),
                            Some(Stamps(now, now)))) in ExportJson(s').value
  {
    var (s', id) := Insert(store, t, now).value;
    InsertThenGetAll(store, t, now);
    var ts := GetAll(s').value;
    var tr := Tournament(id, t.name.value, t.sport.value, t.level.value,
                         t.startDate.value, t.endDate.value,
                         t.officialUrl.GetOr(""), t.streamingLinks.GetOr([]),
                         t.imageUrl.GetOr(""), t.summary.GetOr(""),
                         Some(Stamps(now, now)));
    var i :| 0 <= i < |ts| && ts[i] == tr;
    assert ExportJson(s').value[i] == JsonObject(tr);
    assert JsonObject(tr) in ExportJson(s').value;
  }
}

=== FILE: calendar.dfy ===
/** The slice of Python's `datetime` the collector relies on: proleptic
    Gregorian dates, adding whole days (`date + timedelta(days=n)`),
    `strftime('%Y-%m-%d')` and `strptime(s, '%Y-%m-%d')`.

    `strptime` is modelled on CPython's `_strptime`: the format compiles to
    the regular expression
        (?P<Y>\d\d\d\d)-(?P<m>1[0-2]|0[1-9]|[1-9])-(?P<d>3[01]|[12]\d|0[1-9]|[1-9]| [1-9])
    which is applied with `re.match`; text left after the match raises
    "unconverted data remains", and the fields are then handed to
    `datetime.date(year, month, day)`, which rejects year 0 and a day past
    the end of the month. Every failure is a `ValueError`. */
module Calendar {
  import opened Wrappers

  /** `datetime.MINYEAR` and `datetime.MAXYEAR`. */
  const MinYear := 1
  const MaxYear := 9999

  datatype Date = Date(year: int, month: int, day: int)

  /** The Gregorian leap-year rule. */
  predicate IsLeapYear(y: int) {
    y % 4 == 0 && (y % 100 != 0 || y % 400 == 0)
  }

  function DaysInMonth(y: int, m: int): (n: int)
    requires 1 <= m <= 12
    ensures 28 <= n <= 31
    ensures n == 29 <==> m == 2 && IsLeapYear(y)
    ensures n == 28 <==> m == 2 && !IsLeapYear(y)
    ensures n == 30 <==> m == 4 || m == 6 || m == 9 || m == 11
  {
    if m == 2 then (if IsLeapYear(y) then 29 else 28)
    else if m == 4 || m == 6 || m == 9 || m == 11 then 30
    else 31
  }

  function DaysInYear(y: int): int {
    if IsLeapYear(y) then 366 else 365
  }

  /** A day of the proleptic Gregorian calendar on or after 0001-01-01. The
      year is not bounded above, so that day arithmetic can step past
      `MaxYear` and the caller can report the overflow. */
  predicate IsDay(d: Date) {
    d.year >= MinYear && 1 <= d.month <= 12 && 1 <= d.day <= DaysInMonth(d.year, d.month)
  }

  /** Exactly the triples `datetime.date(year, month, day)` accepts. */
  predicate IsValidDate(d: Date) {
    IsDay(d) && d.year <= MaxYear
  }

  /** Days in the years before `y`. */
  function DaysBeforeYear(y: int): int
    requires y >= MinYear
  {
    var p := y - 1;
    p * 365 + p / 4 - p / 100 + p / 400
  }

  /** Days in the months of year `y` before month `m`. */
  function DaysBeforeMonth(y: int, m: int): int
    requires 1 <= m <= 12
  {
    var common := [0, 31, 59, 90, 120, 151, 181, 212, 243, 273, 304, 334];
    common[m - 1] + (if m > 2 && IsLeapYear(y) then 1 else 0)
  }

  /** The proleptic Gregorian ordinal, `date.toordinal()`: 0001-01-01 is day 1. */
  function Ordinal(d: Date): int
    requires IsDay(d)
  {
    DaysBeforeYear(d.year) + DaysBeforeMonth(d.year, d.month) + d.day
  }

  lemma DaysBeforeNextYear(y: int)
    requires y >= MinYear
    ensures DaysBeforeYear(y + 1) == DaysBeforeYear(y) + DaysInYear(y)
  {
    var a := StepQuotient(y, 4);
    var b := StepQuotient(y, 100);
    var c := StepQuotient(y, 400);
    YearDifference(y);
    assert DaysInYear(y) == 365 + a - b + c;
  }

  lemma YearDifference(y: int)
    requires y >= MinYear
    ensures DaysBeforeYear(y + 1) - DaysBeforeYear(y)
      == 365 + (y / 4 - (y - 1) / 4) - (y / 100 - (y - 1) / 100) + (y / 400 - (y - 1) / 400)
  {
    var p := y - 1;
    assert y * 365 - p * 365 == 365;
  }

  /** How much `q / k` exceeds `(q - 1) / k`: one exactly when `k` divides `q`. */
  lemma StepQuotient(q: int, k: int) returns (step: int)
    requires q >= 1 && (k == 4 || k == 100 || k == 400)
    ensures step == q / k - (q - 1) / k
    ensures step == (if q % k == 0 then 1 else 0)
  {
    step := q / k - (q - 1) / k;
    if k == 4 {
      assert step == (if q % 4 == 0 then 1 else 0);
    } else if k == 100 {
      assert step == (if q % 100 == 0 then 1 else 0);
    } else {
      assert step == (if q % 400 == 0 then 1 else 0);
    }
  }

  lemma DaysBeforeNextMonth(y: int, m: int)
    requires 1 <= m < 12
    ensures DaysBeforeMonth(y, m + 1) == DaysBeforeMonth(y, m) + DaysInMonth(y, m)
  {
  }

  /** The calendar day after `d`. */
  function NextDay(d: Date): (r: Date)
    requires IsDay(d)
    ensures IsDay(r)
    ensures Ordinal(r) == Ordinal(d) + 1
  {
    if d.day < DaysInMonth(d.year, d.month) then
      d.(day := d.day + 1)
    else if d.month < 12 then
      DaysBeforeNextMonth(d.year, d.month);
      Date(d.year, d.month + 1, 1)
    else
      DaysBeforeNextYear(d.year);
      Date(d.year + 1, 1, 1)
  }

  /** `d + timedelta(days=n)` for a whole number of days, computed without
      Python's `MaxYear` bound (the caller compares the year with it). */
  function AddDays(d: Date, n: nat): (r: Date)
    requires IsDay(d)
    ensures IsDay(r)
    ensures Ordinal(r) == Ordinal(d) + n
    ensures r.year >= d.year
    decreases n
  {
    if n == 0 then d else AddDays(NextDay(d), n - 1)
  }

  /** Two days with the same ordinal are the same day, so `Ordinal` fixes a
      date and "n days later" has exactly one meaning. */
  lemma {:induction false} OrdinalInjective(a: Date, b: Date)
    requires IsDay(a) && IsDay(b)
    requires Ordinal(a) == Ordinal(b)
    ensures a == b
  {
    if a.year < b.year {
      YearEndsBefore(a);
      DaysBeforeYearMonotone(a.year + 1, b.year);
      assert false;
    } else if b.year < a.year {
      YearEndsBefore(b);
      DaysBeforeYearMonotone(b.year + 1, a.year);
      assert false;
    } else if a.month < b.month {
      MonthEndsBefore(a, b.month);
      assert false;
    } else if b.month < a.month {
      MonthEndsBefore(b, a.month);
      assert false;
    }
  }

  /** Every day of year `d.year` comes before the first day of the next year. */
  lemma YearEndsBefore(d: Date)
    requires IsDay(d)
    ensures Ordinal(d) <= DaysBeforeYear(d.year + 1)
  {
    DaysBeforeNextYear(d.year);
  }

  lemma {:induction false} DaysBeforeYearMonotone(y: int, z: int)
    requires MinYear <= y <= z
    ensures DaysBeforeYear(y) <= DaysBeforeYear(z)
    decreases z - y
  {
    if y < z {
      DaysBeforeNextYear(y);
      DaysBeforeYearMonotone(y + 1, z);
    }
  }

  /** Every day of month `d.month` comes before the first day of any later month. */
  lemma MonthEndsBefore(d: Date, m: int)
    requires IsDay(d) && d.month < m <= 12
    ensures DaysBeforeMonth(d.year, d.month) + d.day < DaysBeforeMonth(d.year, m) + 1
  {
    DaysBeforeNextMonth(d.year, d.month);
  }

  // ---------------------------------------------------------------------
  // strftime('%Y-%m-%d')

  predicate IsDigit(c: char) {
    '0' <= c <= '9'
  }

  function DigitChar(n: int): (c: char)
    requires 0 <= n < 10
    ensures IsDigit(c)
  {
    ('0' as int + n) as char
  }

  function DigitValue(c: char): (n: int)
    requires IsDigit(c)
    ensures 0 <= n < 10 && DigitChar(n) == c
  {
    c as int - '0' as int
  }

  /** `n` in four decimal digits, zero-padded. */
  function Pad4(n: int): (s: string)
    requires 0 <= n < 10000
  {
    [DigitChar(n / 1000), DigitChar(n / 100 % 10), DigitChar(n / 10 % 10), DigitChar(n % 10)]
  }

  /** `n` in two decimal digits, zero-padded. */
  function Pad2(n: int): (s: string)
    requires 0 <= n < 100
  {
    [DigitChar(n / 10), DigitChar(n % 10)]
  }

  /** `d.strftime('%Y-%m-%d')`. */
  function IsoFormat(d: Date): (s: string)
    requires IsValidDate(d)
    ensures |s| == 10 && s[4] == '-' && s[7] == '-'
    ensures forall i :: 0 <= i < |s| && i != 4 && i != 7 ==> IsDigit(s[i])
  {
    Pad4(d.year) + "-" + Pad2(d.month) + "-" + Pad2(d.day)
  }

  // ---------------------------------------------------------------------
  // strptime(s, '%Y-%m-%d')

  /** Why `strptime` raised `ValueError`: the regular expression did not
      match, text was left after the match, or the fields are not a date. */
  datatype DateError = NoMatch | UnconvertedData | OutOfRange

  /** The value of four decimal digits (the `%Y` group). */
  function FourDigitValue(t: string): (n: int)
    requires |t| == 4 && IsDigit(t[0]) && IsDigit(t[1]) && IsDigit(t[2]) && IsDigit(t[3])
    ensures 0 <= n < 10000
  {
    DigitValue(t[0]) * 1000 + DigitValue(t[1]) * 100 + DigitValue(t[2]) * 10 + DigitValue(t[3])
  }

  /** The `%m` group `1[0-2]|0[1-9]|[1-9]` at the head of `t`, first
      alternative first: the month and the number of characters it took.
      Trying the alternatives in order without backtracking gives the same
      answer as the regular-expression engine, because the character that
      must follow is a '-', which no alternative could have consumed. */
  function MatchMonth(t: string): (r: Option<(int, nat)>)
    ensures r.Some? ==> 1 <= r.value.0 <= 12 && 1 <= r.value.1 <= 2 && r.value.1 <= |t|
  {
    if |t| >= 2 && t[0] == '1' && '0' <= t[1] <= '2' then Some((10 + DigitValue(t[1]), 2))
    else if |t| >= 2 && t[0] == '0' && '1' <= t[1] <= '9' then Some((DigitValue(t[1]), 2))
    else if |t| >= 1 && '1' <= t[0] <= '9' then Some((DigitValue(t[0]), 1))
    else None
  }

  /** The `%d` group `3[01]|[12]\d|0[1-9]|[1-9]| [1-9]` at the head of `t`,
      first matching alternative: the day and the number of characters it took. */
  function MatchDay(t: string): (r: Option<(int, nat)>)
    ensures r.Some? ==> 1 <= r.value.0 <= 31 && 1 <= r.value.1 <= 2 && r.value.1 <= |t|
  {
    if |t| >= 2 && t[0] == '3' && '0' <= t[1] <= '1' then Some((30 + DigitValue(t[1]), 2))
    else if |t| >= 2 && '1' <= t[0] <= '2' && IsDigit(t[1]) then Some((DigitValue(t[0]) * 10 + DigitValue(t[1]), 2))
    else if |t| >= 2 && t[0] == '0' && '1' <= t[1] <= '9' then Some((DigitValue(t[1]), 2))
    else if |t| >= 1 && '1' <= t[0] <= '9' then Some((DigitValue(t[0]), 1))
    else if |t| >= 2 && t[0] == ' ' && '1' <= t[1] <= '9' then Some((DigitValue(t[1]), 2))
    else None
  }

  /** `datetime.strptime(s, '%Y-%m-%d')`, keeping only the date. */
  function Strptime(s: string): (r: Result<Date, DateError>)
    ensures r.Success? ==> IsValidDate(r.value)
  {
    if |s| < 5 || !(IsDigit(s[0]) && IsDigit(s[1]) && IsDigit(s[2]) && IsDigit(s[3])) || s[4] != '-' then
      Failure(NoMatch)
    else
      var year := FourDigitValue(s[..4]);
      match MatchMonth(s[5..])
      case None => Failure(NoMatch)
      case Some((month, k)) =>
        var rest := s[5 + k..];
        if |rest| == 0 || rest[0] != '-' then Failure(NoMatch)
        else
          match MatchDay(rest[1..])
          case None => Failure(NoMatch)
          case Some((day, j)) =>
            if 1 + j < |rest| then Failure(UnconvertedData)
            else if IsValidDate(Date(year, month, day)) then Success(Date(year, month, day))
            else Failure(OutOfRange)
  }

  /** Whether `strptime(s, '%Y-%m-%d')` returns instead of raising. */
  predicate IsAcceptedDate(s: string) {
    Strptime(s).Success?
  }

  // ---------------------------------------------------------------------
  // What strptime accepts, stated independently of the matcher

  /** The ways `%m` may spell month `m`: two digits, or one digit below 10. */
  ghost function MonthSpellings(m: int): set<string>
    requires 1 <= m <= 12
  {
    {Pad2(m)} + (if m < 10 then {[DigitChar(m)]} else {})
  }

  /** The ways `%d` may spell day `d`: two digits, or below 10 also one
      digit alone or after a single space. */
  ghost function DaySpellings(d: int): set<string>
    requires 1 <= d <= 31
  {
    {Pad2(d)} + (if d < 10 then {[DigitChar(d)], [' ', DigitChar(d)]} else {})
  }

  /** Every string `strptime` reads as the date `d`. */
  ghost function Spellings(d: Date): set<string>
    requires IsValidDate(d)
  {
    set ms, ds | ms in MonthSpellings(d.month) && ds in DaySpellings(d.day) :: Pad4(d.year) + "-" + ms + "-" + ds
  }

  lemma Pad4RoundTrip(n: int)
    requires 0 <= n < 10000
    ensures var t := Pad4(n); |t| == 4 && IsDigit(t[0]) && IsDigit(t[1]) && IsDigit(t[2]) && IsDigit(t[3])
    ensures FourDigitValue(Pad4(n)) == n
  {
    assert n == 1000 * (n / 1000) + n % 1000;
    assert n % 1000 == 100 * (n / 100 % 10) + n % 100;
    assert n % 100 == 10 * (n / 10 % 10) + n % 10;
  }

  lemma FourDigitRoundTrip(t: string)
    requires |t| == 4 && IsDigit(t[0]) && IsDigit(t[1]) && IsDigit(t[2]) && IsDigit(t[3])
    ensures Pad4(FourDigitValue(t)) == t
  {
    var a, b, c, d := DigitValue(t[0]), DigitValue(t[1]), DigitValue(t[2]), DigitValue(t[3]);
    DecimalDigits(a, b, c, d);
    assert t == [DigitChar(a), DigitChar(b), DigitChar(c), DigitChar(d)];
  }

  /** The four digits of `1000a + 100b + 10c + d` are `a`, `b`, `c`, `d`. */
  lemma DecimalDigits(a: int, b: int, c: int, d: int)
    requires 0 <= a < 10 && 0 <= b < 10 && 0 <= c < 10 && 0 <= d < 10
    ensures var n := a * 1000 + b * 100 + c * 10 + d;
      n / 1000 == a && n / 100 % 10 == b && n / 10 % 10 == c && n % 10 == d
  {
    var n := a * 1000 + b * 100 + c * 10 + d;
    assert n / 10 == a * 100 + b * 10 + c;
    assert n / 100 == a * 10 + b;
  }

  lemma MatchMonthSpelling(m: int, ms: string, tail: string)
    requires 1 <= m <= 12 && ms in MonthSpellings(m)
    ensures MatchMonth(ms + "-" + tail) == Some((m, |ms|))
  {
  }

  lemma MatchDaySpelling(d: int, ds: string)
    requires 1 <= d <= 31 && ds in DaySpellings(d)
    ensures MatchDay(ds) == Some((d, |ds|))
  {
  }

  lemma MonthMatchIsSpelling(t: string)
    requires MatchMonth(t).Some?
    ensures var (m, k) := MatchMonth(t).value; t[..k] in MonthSpellings(m)
  {
    var (m, k) := MatchMonth(t).value;
    if k == 2 {
      assert t[..k] == Pad2(m);
    } else {
      assert t[..k] == [DigitChar(m)];
    }
  }

  lemma DayMatchIsSpelling(t: string)
    requires MatchDay(t).Some?
    ensures var (d, j) := MatchDay(t).value; t[..j] in DaySpellings(d)
  {
    var (d, j) := MatchDay(t).value;
    if j == 1 {
      assert t[..j] == [DigitChar(d)];
    } else if t[0] == ' ' {
      assert t[..j] == [' ', DigitChar(d)];
    } else {
      assert t[..j] == Pad2(d);
    }
  }

  /** Every spelling of a valid date is read back as that date. */
  lemma StrptimeReadsSpelling(d: Date, s: string)
    requires IsValidDate(d) && s in Spellings(d)
    ensures Strptime(s) == Success(d)
  {
    var ms, ds :| ms in MonthSpellings(d.month) && ds in DaySpellings(d.day)
                 && s == Pad4(d.year) + "-" + ms + "-" + ds;
    StrptimeReadsParts(d, ms, ds);
  }

  /** The spelling built from the padded year, `ms` and `ds` is read back
      as `d`. */
  lemma StrptimeReadsParts(d: Date, ms: string, ds: string)
    requires IsValidDate(d) && ms in MonthSpellings(d.month) && ds in DaySpellings(d.day)
    ensures Strptime(Pad4(d.year) + "-" + ms + "-" + ds) == Success(d)
  {
    var s := Pad4(d.year) + "-" + ms + "-" + ds;
    Pad4RoundTrip(d.year);
    assert s[..4] == Pad4(d.year);
    assert s[5..] == ms + "-" + ds;
    MatchMonthSpelling(d.month, ms, ds);
    var rest := s[5 + |ms|..];
    assert rest == "-" + ds;
    assert rest[1..] == ds;
    MatchDaySpelling(d.day, ds);
  }

  /** Every string `strptime` accepts is a spelling of the date it returns. */
  lemma StrptimeOnlySpellings(s: string)
    requires Strptime(s).Success?
    ensures s in Spellings(Strptime(s).value)
  {
    var d := Strptime(s).value;
    FourDigitRoundTrip(s[..4]);
    var (m, k) := MatchMonth(s[5..]).value;
    MonthMatchIsSpelling(s[5..]);
    var rest := s[5 + k..];
    var (dd, j) := MatchDay(rest[1..]).value;
    DayMatchIsSpelling(rest[1..]);
    var ms, ds := s[5..][..k], rest[1..][..j];
    assert rest[1..] == ds;
    assert s == s[..4] + "-" + ms + rest;
    assert s == Pad4(d.year) + "-" + ms + "-" + ds;
  }

  /** `strptime(s, '%Y-%m-%d')` returns `d` exactly when `d` is a date
      `datetime.date` accepts and `s` is one of its spellings. */
  lemma StrptimeCharacterised(s: string, d: Date)
    ensures Strptime(s) == Success(d) <==> IsValidDate(d) && s in Spellings(d)
  {
    if Strptime(s) == Success(d) {
      StrptimeOnlySpellings(s);
    }
    if IsValidDate(d) && s in Spellings(d) {
      StrptimeReadsSpelling(d, s);
    }
  }

  /** `strptime` reads back what `strftime` writes. */
  lemma IsoFormatRoundTrip(d: Date)
    requires IsValidDate(d)
    ensures Strptime(IsoFormat(d)) == Success(d)
  {
    assert Pad2(d.month) in MonthSpellings(d.month);
    assert Pad2(d.day) in DaySpellings(d.day);
    assert IsoFormat(d) in Spellings(d);
    StrptimeReadsSpelling(d, IsoFormat(d));
  }

  /** Strings the pattern does not match: a day-month-year string and a
      month 13. */
  lemma StrptimeNoMatchExamples()
    ensures Strptime("13-13-2025") == Failure(NoMatch)
    ensures Strptime("2025-13-01") == Failure(NoMatch)
  {
    assert "13-13-2025"[2] == '-';
  }

  /** Leap days: 29 February exists in 2024 but not in 2023. */
  lemma StrptimeRangeExamples()
    ensures Strptime("2023-02-29") == Failure(OutOfRange)
    ensures Strptime("2024-02-29") == Success(Date(2024, 2, 29))
  {
  }

  /** The centurial rule, and the year below the smallest. */
  lemma StrptimeCenturyExamples()
    ensures Strptime("1900-02-29") == Failure(OutOfRange)
    ensures Strptime("0000-01-01") == Failure(OutOfRange)
  {
  }

  /** Short spellings are read; text after the day is refused. */
  lemma StrptimeSpellingExamples()
    ensures Strptime("2025-6-1") == Success(Date(2025, 6, 1))
    ensures Strptime("2025-06- 1") == Success(Date(2025, 6, 1))
    ensures Strptime("2025-06-01x") == Failure(UnconvertedData)
    ensures Strptime("2025-06-011") == Failure(UnconvertedData)
  {
    assert "2025-06-01x"[5..] == "06-01x";
  }
}

=== FILE: collector.dfy ===
/** The tournament data collector: the two fixed enumerations, the record
    validator and the template-driven sample generator. */
module Collector {
  import opened Wrappers
  import opened Calendar
  import Text

  /** The sports a record may name, in the order the service lists them. */
  const Sports: seq<string> := [
    "Cricket", "Football", "Badminton", "Running", "Gym",
    "Cycling", "Swimming", "Kabaddi", "Yoga", "Basketball",
    "Chess", "Table Tennis"
  ]

  /** The competitive levels a record may name, in the order the service lists them. */
  const Levels: seq<string> := [
    "Corporate", "School", "College/University", "Club/Academy",
    "District", "State", "Zonal/Regional", "National", "International"
  ]

  /** A tournament record as the dictionary the collector produces and the
      store consumes: every key may be absent (`None`). */
  datatype Record = Record(
    name: Option<string>,
    sport: Option<string>,
    level: Option<string>,
    startDate: Option<string>,
    endDate: Option<string>,
    officialUrl: Option<string>,
    streamingLinks: Option<seq<string>>,
    imageUrl: Option<string>,
    summary: Option<string>)

  /** The keys a record must carry. */
  datatype Field = Name | Sport | Level | StartDate | EndDate

  /** `required_fields`, in the order the validator checks them. */
  const RequiredFields: seq<Field> := [Name, Sport, Level, StartDate, EndDate]

  function Lookup(t: Record, f: Field): Option<string> {
    match f
    case Name => t.name
    case Sport => t.sport
    case Level => t.level
    case StartDate => t.startDate
    case EndDate => t.endDate
  }

  /** The key is present and its text is truthy, i.e. not empty. */
  predicate Filled(v: Option<string>) {
    v.Some? && v.value != ""
  }

  /** The first of `fields` that is absent or empty in `t`, the field at
      which the validator's loop returns `False`. */
  function FirstUnfilled(t: Record, fields: seq<Field>): (r: Option<Field>)
    ensures r.None? <==> forall i :: 0 <= i < |fields| ==> Filled(Lookup(t, fields[i]))
    ensures r.Some? ==> r.value in fields && !Filled(Lookup(t, r.value))
  {
    if |fields| == 0 then None
    else if !Filled(Lookup(t, fields[0])) then Some(fields[0])
    else FirstUnfilled(t, fields[1..])
  }

  /** `validate_tournament_data`: the required keys are present and
      non-empty, both dates are read by `strptime(_, '%Y-%m-%d')` without a
      `ValueError`, and sport and level are exact members of the fixed
      lists. That the start date is not after the end date is not checked. */
  function Validate(t: Record): (ok: bool)
    ensures ok <==>
      && Filled(t.name) && Filled(t.sport) && Filled(t.level)
      && Filled(t.startDate) && Filled(t.endDate)
      && IsAcceptedDate(t.startDate.value) && IsAcceptedDate(t.endDate.value)
      && t.sport.value in Sports
      && t.level.value in Levels
    ensures (!Filled(t.name) || !Filled(t.sport) || !Filled(t.level)
             || !Filled(t.startDate) || !Filled(t.endDate)) ==> !ok
  {
    if FirstUnfilled(t, RequiredFields).Some? then
      false
    else
      assert Filled(Lookup(t, RequiredFields[0])) && Filled(Lookup(t, RequiredFields[1]))
          && Filled(Lookup(t, RequiredFields[2])) && Filled(Lookup(t, RequiredFields[3]))
          && Filled(Lookup(t, RequiredFields[4]));
      if Strptime(t.startDate.value).Failure? || Strptime(t.endDate.value).Failure? then
        false
      else if t.sport.value !in Sports then
        false
      else if t.level.value !in Levels then
        false
      else
        true
  }

  /** A record with all nine keys set. */
  function FullRecord(name: string, sport: string, level: string, startDate: string, endDate: string): Record {
    Record(Some(name), Some(sport), Some(level), Some(startDate), Some(endDate),
           Some(""), Some([]), Some(""), Some(""))
  }

  /** A complete record passes. */
  lemma ValidateAcceptsExample()
    ensures Validate(FullRecord("Test Cup", "Chess", "State", "2025-06-01", "2025-06-10"))
  {
    ExampleDatesAccepted();
    FullRecordValidates("Test Cup", "Chess", "State", "2025-06-01", "2025-06-10");
  }

  /** The dates need not be in order: an end before the start passes too. */
  lemma ValidateAcceptsReversedDates()
    ensures Validate(FullRecord("Test Cup", "Chess", "State", "2025-06-10", "2025-06-01"))
  {
    ExampleDatesAccepted();
    FullRecordValidates("Test Cup", "Chess", "State", "2025-06-10", "2025-06-01");
  }

  lemma FullRecordValidates(name: string, sport: string, level: string, startDate: string, endDate: string)
    requires name != "" && sport in Sports && level in Levels
    requires IsAcceptedDate(startDate) && IsAcceptedDate(endDate)
    ensures Validate(FullRecord(name, sport, level, startDate, endDate))
  {
    assert startDate != "" && endDate != "";
  }

  lemma ExampleDatesAccepted()
    ensures IsAcceptedDate("2025-06-01") && IsAcceptedDate("2025-06-10")
  {
    assert Strptime("2025-06-01") == Success(Date(2025, 6, 1));
    assert Strptime("2025-06-10") == Success(Date(2025, 6, 10));
  }

  /** A missing or empty required key is rejected. */
  lemma ValidateRejectsMissingExample()
    ensures !Validate(FullRecord("Test Cup", "Chess", "State", "2025-06-01", "2025-06-10").(level := None))
    ensures !Validate(FullRecord("Test Cup", "Chess", "", "2025-06-01", "2025-06-10"))
  {
  }

  /** A date `strptime` refuses is rejected. */
  lemma ValidateRejectsDateExample()
    ensures !Validate(FullRecord("Test Cup", "Chess", "State", "13-13-2025", "2025-06-10"))
    ensures !Validate(FullRecord("Test Cup", "Chess", "State", "2025-06-01", "2023-02-29"))
  {
    StrptimeNoMatchExamples();
    StrptimeRangeExamples();
  }

  /** Sport and level must match a listed name exactly, case included. */
  lemma ValidateRejectsNameExample()
    ensures !Validate(FullRecord("Test Cup", "Darts", "State", "2025-06-01", "2025-06-10"))
    ensures !Validate(FullRecord("Test Cup", "chess", "State", "2025-06-01", "2025-06-10"))
    ensures !Validate(FullRecord("Test Cup", "Chess", "state", "2025-06-01", "2025-06-10"))
  {
    assert "Darts" !in Sports;
    assert "chess" !in Sports;
    assert "state" !in Levels;
  }

  // ---------------------------------------------------------------------
  // generate_sample_tournaments

  /** One entry of the sample templates: a tournament name, its level and
      how many days it lasts. */
  datatype Template = Template(name: string, level: string, duration: nat)

  /** The fourteen templates with their sport, in the order the generator's
      nested loops visit them: sports in the template dictionary's insertion
      order, each sport's templates in list order. */
  const Templates: seq<(string, Template)> := [
    ("Cricket", Template("IPL 2025", "International", 45)),
    ("Cricket", Template("Ranji Trophy", "National", 30)),
    ("Cricket", Template("Corporate Cricket League", "Corporate", 7)),
    ("Cricket", Template("Inter-College Cricket Championship", "College/University", 14)),
    ("Football", Template("FIFA World Cup Qualifiers", "International", 60)),
    ("Football", Template("I-League", "National", 180)),
    ("Football", Template("Corporate Football Tournament", "Corporate", 5)),
    ("Football", Template("School Football Championship", "School", 10)),
    ("Basketball", Template("NBA India Games", "International", 3)),
    ("Basketball", Template("National Basketball Championship", "National", 21)),
    ("Basketball", Template("College Basketball League", "College/University", 14)),
    ("Chess", Template("World Chess Championship", "International", 21)),
    ("Chess", Template("National Chess Championship", "National", 14)),
    ("Chess", Template("State Chess Tournament", "State", 7))
  ]

  /** The longest template duration, in days. */
  const MaxDuration := 180

  /** A template the validator will accept once dated: a listed sport, a
      listed level, a non-empty name. */
  predicate WellFormed(sport: string, tpl: Template) {
    sport in Sports && tpl.level in Levels && tpl.name != ""
  }

  /** Every template is well formed and lasts at most `MaxDuration` days. */
  lemma TemplatesWellFormed()
    ensures |Templates| == 14
    ensures forall i :: 0 <= i < |Templates| ==>
      WellFormed(Templates[i].0, Templates[i].1) && Templates[i].1.duration <= MaxDuration
  {
    forall i | 0 <= i < |Templates|
      ensures WellFormed(Templates[i].0, Templates[i].1) && Templates[i].1.duration <= MaxDuration
    {
      assert Templates[i].0 in Sports;
      assert Templates[i].1.level in Levels;
    }
  }

  /** The streaming partners every sample carries. */
  const SampleLinks: seq<string> := ["Star Sports", "Hotstar", "Sony Liv"]

  /** The record the generator builds from one template. */
  function SampleRecord(sport: string, tpl: Template, start: Date, end: Date): Record
    requires IsValidDate(start) && IsValidDate(end)
  {
    Record(
      Some(tpl.name),
      Some(sport),
      Some(tpl.level),
      Some(IsoFormat(start)),
      Some(IsoFormat(end)),
      Some(OfficialUrlOf(tpl.name)),
      Some(SampleLinks),
      Some(ImageUrlOf(sport)),
      Some(SummaryOf(sport, tpl.level)))
  }

  /** The sample's official URL: the name lower-cased, spaces turned into
      dashes, after the site prefix. */
  function OfficialUrlOf(name: string): string {
    "https://example.com/" + Text.ReplaceChar(Text.LowerAscii(name), ' ', '-')
  }

  /** The sample's image URL: the lower-cased sport under the images path. */
  function ImageUrlOf(sport: string): string {
    "https://example.com/images/" + Text.LowerAscii(sport) + ".jpg"
  }

  /** The sample's description. */
  function SummaryOf(sport: string, level: string): string {
    "Premier " + sport + " tournament at " + level + " level featuring top teams and players."
  }

  /** The sample's links: the official URL is the site prefix and then
      the template name lower-cased with every space turned into a dash,
      so it holds no space and no capital; the image URL is the lower-cased
      sport's `.jpg` under the images path. */
  lemma SampleUrls(sport: string, tpl: Template, start: Date, end: Date)
    requires IsValidDate(start) && IsValidDate(end)
    ensures var rec := SampleRecord(sport, tpl, start, end);
      && rec.officialUrl.Some? && rec.imageUrl.Some?
      && var url := rec.officialUrl.value;
      && |url| == 20 + |tpl.name|
      && url[..20] == "https://example.com/"
      && (forall i :: 0 <= i < |tpl.name| ==>
            url[20 + i] == (if tpl.name[i] == ' ' then '-' else Text.LowerChar(tpl.name[i])))
      && (forall i :: 20 <= i < |url| ==> url[i] != ' ' && !('A' <= url[i] <= 'Z'))
      && var img := rec.imageUrl.value;
      && |img| == 31 + |sport|
      && img[..27] == "https://example.com/images/"
      && (forall i :: 0 <= i < |sport| ==> img[27 + i] == Text.LowerChar(sport[i]))
      && img[27 + |sport|..] == ".jpg"
  {
    SlugUrl(tpl.name);
    ImageUrl(sport);
  }

  /** The official URL built from a template name: the name lower-cased,
      spaces turned into dashes, after the site prefix. */
  lemma SlugUrl(name: string)
    ensures var url := OfficialUrlOf(name);
      && |url| == 20 + |name|
      && url[..20] == "https://example.com/"
      && (forall i :: 0 <= i < |name| ==>
            url[20 + i] == (if name[i] == ' ' then '-' else Text.LowerChar(name[i])))
      && (forall i :: 20 <= i < |url| ==> url[i] != ' ' && !('A' <= url[i] <= 'Z'))
  {
    var slug := Text.ReplaceChar(Text.LowerAscii(name), ' ', '-');
    var url := "https://example.com/" + slug;
    assert forall i :: 20 <= i < |url| ==> url[i] == slug[i - 20];
  }

  /** The image URL built from a sport: the lower-cased sport and `.jpg`
      after the images path. */
  lemma ImageUrl(sport: string)
    ensures var img := ImageUrlOf(sport);
      && |img| == 31 + |sport|
      && img[..27] == "https://example.com/images/"
      && (forall i :: 0 <= i < |sport| ==> img[27 + i] == Text.LowerChar(sport[i]))
      && img[27 + |sport|..] == ".jpg"
  {
    var img := "https://example.com/images/" + Text.LowerAscii(sport) + ".jpg";
    assert forall i :: 0 <= i < |sport| ==> img[27 + i] == Text.LowerAscii(sport)[i];
    assert img[27 + |sport|..] == ".jpg";
  }

  /** Why the generator raised: a computed date fell past 9999-12-31
      (`OverflowError: date value out of range`). */
  datatype GenerateError = DateOverflow

  /** The day the template's tournament ends: `offset` days after `today`,
      then `duration` more. */
  function EndDay(today: Date, offset: nat, tpl: Template): Date
    requires IsDay(today)
  {
    AddDays(AddDays(today, offset), tpl.duration)
  }

  /** `rec` is the sample for `tpl` under `sport`, starting `offset` days
      after `today`: names, level and links copied, and both dates read
      back by the validator's `strptime`, the start `offset` days after
      `today` and the end `duration` days after the start. */
  ghost predicate IsSampleFor(rec: Record, sport: string, tpl: Template, today: Date, offset: int)
    requires IsDay(today)
  {
    && rec.name == Some(tpl.name)
    && rec.sport == Some(sport)
    && rec.level == Some(tpl.level)
    && rec.streamingLinks == Some(SampleLinks)
    && rec.startDate.Some? && rec.endDate.Some?
    && Strptime(rec.startDate.value).Success?
    && Strptime(rec.endDate.value).Success?
    && Ordinal(Strptime(rec.startDate.value).value) == Ordinal(today) + offset
    && Ordinal(Strptime(rec.endDate.value).value) == Ordinal(Strptime(rec.startDate.value).value) + tpl.duration
  }

  /** `rec` carries the sample texts for `tpl` under `sport`: the official
      URL built from the name, the image URL built from the sport, and the
      description. */
  predicate HasSampleTexts(rec: Record, sport: string, tpl: Template) {
    && rec.officialUrl == Some(OfficialUrlOf(tpl.name))
    && rec.imageUrl == Some(ImageUrlOf(sport))
    && rec.summary == Some(SummaryOf(sport, tpl.level))
  }

  /** One pass of the inner loop: date the template `offset` days after
      `today` and build its record, raising once either date leaves the
      calendar. */
  function SampleFor(today: Date, offset: nat, sport: string, tpl: Template): (r: Result<Record, GenerateError>)
    requires IsValidDate(today)
    ensures r.Success? <==> EndDay(today, offset, tpl).year <= MaxYear
    ensures r.Success? ==> IsSampleFor(r.value, sport, tpl, today, offset)
    ensures r.Success? ==> HasSampleTexts(r.value, sport, tpl)
  {
    var start := AddDays(today, offset);
    var end := AddDays(start, tpl.duration);
    if start.year > MaxYear || end.year > MaxYear then
      Failure(DateOverflow)
    else
      IsoFormatRoundTrip(start);
      IsoFormatRoundTrip(end);
      Success(SampleRecord(sport, tpl, start, end))
  }

  /** A dated sample of a well-formed template passes the validator. */
  lemma SampleValidates(rec: Record, sport: string, tpl: Template, today: Date, offset: int)
    requires IsDay(today)
    requires IsSampleFor(rec, sport, tpl, today, offset) && WellFormed(sport, tpl)
    ensures Validate(rec)
  {
    assert Filled(rec.startDate) && Filled(rec.endDate);
  }

  /** The records of a run of the loops, or the first error raised: the
      loop stops at the first overflow, so the run succeeds exactly when
      every pass does. */
  function FirstFailure(rs: seq<Result<Record, GenerateError>>): (r: Result<seq<Record>, GenerateError>)
    ensures r.Success? <==> forall i :: 0 <= i < |rs| ==> rs[i].Success?
    ensures r.Success? ==> |r.value| == |rs| && forall i :: 0 <= i < |rs| ==> r.value[i] == rs[i].value
    ensures r.Failure? ==> exists i :: 0 <= i < |rs| && rs[i] == Failure(r.error)
  {
    if |rs| == 0 then Success([])
    else
      match rs[0]
      case Failure(e) => Failure(e)
      case Success(rec) =>
        match FirstFailure(rs[1..])
        case Failure(e) => Failure(e)
        case Success(rest) => Success([rec] + rest)
  }

  /** Every clock reading is a calendar day. */
  predicate ValidDates(todays: seq<Date>)
  {
    forall i :: 0 <= i < |todays| ==> IsValidDate(todays[i])
  }

  /** The generator's loops over `pairs`: pass `i` reads the clock as
      `todays[i]` and draws the start offset `offsets[i]`. */
  function GenerateFrom(todays: seq<Date>, pairs: seq<(string, Template)>, offsets: seq<nat>): (r: Result<seq<Record>, GenerateError>)
    requires ValidDates(todays)
    requires |todays| == |offsets| == |pairs|
    ensures r.Success? <==> forall i :: 0 <= i < |pairs| ==> EndDay(todays[i], offsets[i], pairs[i].1).year <= MaxYear
    ensures r.Success? ==> |r.value| == |pairs|
    ensures r.Success? ==> forall i :: 0 <= i < |pairs| ==>
      IsSampleFor(r.value[i], pairs[i].0, pairs[i].1, todays[i], offsets[i])
    ensures r.Success? ==> forall i :: 0 <= i < |pairs| ==> HasSampleTexts(r.value[i], pairs[i].0, pairs[i].1)
  {
    var rs := seq(|pairs|, i requires 0 <= i < |pairs| => SampleFor(todays[i], offsets[i], pairs[i].0, pairs[i].1));
    SamplesOutcome(todays, pairs, offsets, rs);
    FirstFailure(rs)
  }

  /** Pass by pass: each pass succeeds exactly when its end date stays in
      the calendar, and then yields the sample for its template. */
  lemma SamplesOutcome(todays: seq<Date>, pairs: seq<(string, Template)>, offsets: seq<nat>, rs: seq<Result<Record, GenerateError>>)
    requires ValidDates(todays)
    requires |todays| == |offsets| == |pairs| == |rs|
    requires forall i :: 0 <= i < |rs| ==> rs[i] == SampleFor(todays[i], offsets[i], pairs[i].0, pairs[i].1)
    ensures (forall i :: 0 <= i < |rs| ==> rs[i].Success?)
        <==> (forall i :: 0 <= i < |pairs| ==> EndDay(todays[i], offsets[i], pairs[i].1).year <= MaxYear)
    ensures forall i :: 0 <= i < |rs| && rs[i].Success? ==>
      IsSampleFor(rs[i].value, pairs[i].0, pairs[i].1, todays[i], offsets[i])
    ensures forall i :: 0 <= i < |rs| && rs[i].Success? ==> HasSampleTexts(rs[i].value, pairs[i].0, pairs[i].1)
  {
    forall i | 0 <= i < |rs|
      ensures rs[i].Success? <==> EndDay(todays[i], offsets[i], pairs[i].1).year <= MaxYear
    {
      var _ := SampleFor(todays[i], offsets[i], pairs[i].0, pairs[i].1);
    }
  }

  /** `generate_sample_tournaments`, with the fourteen readings of the
      current date and the fourteen `random.randint(1, 365)` draws as
      parameters, one of each per template. */
  function GenerateSampleTournaments(todays: seq<Date>, offsets: seq<nat>): (r: Result<seq<Record>, GenerateError>)
    requires ValidDates(todays)
    requires |todays| == |Templates| && |offsets| == |Templates|
    requires forall i :: 0 <= i < |offsets| ==> 1 <= offsets[i] <= 365
    ensures r.Success? <==> forall i :: 0 <= i < |Templates| ==> EndDay(todays[i], offsets[i], Templates[i].1).year <= MaxYear
    ensures r.Success? ==> |r.value| == |Templates|
    ensures r.Success? ==> forall i :: 0 <= i < |Templates| ==>
      IsSampleFor(r.value[i], Templates[i].0, Templates[i].1, todays[i], offsets[i])
    ensures r.Success? ==> forall i :: 0 <= i < |Templates| ==> HasSampleTexts(r.value[i], Templates[i].0, Templates[i].1)
  {
    GenerateFrom(todays, Templates, offsets)
  }

  /** Every sample the generator produces passes the validator. */
  lemma GeneratedRecordsValidate(todays: seq<Date>, offsets: seq<nat>)
    requires ValidDates(todays)
    requires |todays| == |Templates| && |offsets| == |Templates|
    requires forall i :: 0 <= i < |offsets| ==> 1 <= offsets[i] <= 365
    requires GenerateSampleTournaments(todays, offsets).Success?
    ensures forall rec :: rec in GenerateSampleTournaments(todays, offsets).value ==> Validate(rec)
  {
    var recs := GenerateSampleTournaments(todays, offsets).value;
    TemplatesWellFormed();
    forall i | 0 <= i < |recs|
      ensures Validate(recs[i])
    {
      SampleValidates(recs[i], Templates[i].0, Templates[i].1, todays[i], offsets[i]);
    }
  }

  /** The generator only overflows when some clock reading falls in the
      last two representable years. */
  lemma GenerateSucceeds(todays: seq<Date>, offsets: seq<nat>)
    requires ValidDates(todays)
    requires forall i :: 0 <= i < |todays| ==> todays[i].year <= MaxYear - 2
    requires |todays| == |Templates| && |offsets| == |Templates|
    requires forall i :: 0 <= i < |offsets| ==> 1 <= offsets[i] <= 365
    ensures GenerateSampleTournaments(todays, offsets).Success?
  {
    TemplatesWellFormed();
    forall i | 0 <= i < |offsets|
      ensures EndDay(todays[i], offsets[i], Templates[i].1).year <= MaxYear
    {
      EndDayBound(todays[i], offsets[i], Templates[i].1);
    }
  }

  /** A start at most a year away and a run of at most `MaxDuration` days
      end within two years of `today`. */
  lemma EndDayBound(today: Date, offset: nat, tpl: Template)
    requires IsDay(today) && offset <= 365 && tpl.duration <= MaxDuration
    ensures EndDay(today, offset, tpl).year <= today.year + 2
  {
    AddDaysSplit(today, offset, tpl.duration);
    AddDaysYearBound(today, offset + tpl.duration);
  }

  /** Adding `a` days then `b` days is adding `a + b` days. */
  lemma AddDaysSplit(d: Date, a: nat, b: nat)
    requires IsDay(d)
    ensures AddDays(AddDays(d, a), b) == AddDays(d, a + b)
  {
    OrdinalInjective(AddDays(AddDays(d, a), b), AddDays(d, a + b));
  }

  /** Fewer than two years' worth of days moves the year on by at most two. */
  lemma AddDaysYearBound(d: Date, n: nat)
    requires IsDay(d) && n <= 730
    ensures AddDays(d, n).year <= d.year + 2
  {
    var r := AddDays(d, n);
    if r.year > d.year + 2 {
      YearEndsBefore(d);
      DaysBeforeNextYear(d.year + 1);
      DaysBeforeNextYear(d.year + 2);
      DaysBeforeYearMonotone(d.year + 3, r.year);
      assert false;
    }
  }
}

=== FILE: database.dfy ===
/** The `tournaments` table as an abstract store: the rows in insertion
    order and the AUTOINCREMENT counter, with the insert and the two
    queries the service runs against it. */
module Database {
  import opened Wrappers
  import opened Text
  import opened Collector
  import LinksJson

  /** The `streaming_links` column: SQL NULL or a text value. */
  datatype LinksCell = NullCell | TextCell(text: string)

  /** One row of the table, columns in schema order. */
  datatype Row = Row(
    id: nat,
    name: string,
    sport: string,
    level: string,
    startDate: string,
    endDate: string,
    officialUrl: string,
    links: LinksCell,
    imageUrl: string,
    summary: string,
    createdAt: string,
    updatedAt: string)

  /** The table: its rows in insertion order, and the largest id the
      AUTOINCREMENT column has ever handed out. */
  datatype Store = Store(rows: seq<Row>, lastId: nat)

  /** The table `init_database` creates. */
  const EmptyStore := Store([], 0)

  // ---------------------------------------------------------------------
  // The streaming_links cell

  /** The list a stored cell reads back as: an empty or NULL cell is the
      empty list, anything else goes through `json.loads`; `None` is the
      `JSONDecodeError` it would raise. A non-empty cell reads back only
      when it holds a bracketed list. */
  function ReadLinks(c: LinksCell): (r: Option<seq<string>>)
    ensures c.TextCell? && c.text != "" && r.Some? ==> c.text[0] == '[' && c.text[|c.text| - 1] == ']'
  {
    match c
    case NullCell => Some([])
    case TextCell(s) => if s == "" then Some([]) else LinksJson.Decode(s)
  }

  /** The cell `insert_tournament` writes for a list of links. */
  function WriteLinks(xs: seq<string>): LinksCell {
    TextCell(LinksJson.Encode(xs))
  }

  /** A stored list reads back as the same list, in the same order; an
      empty or NULL cell reads back as the empty list. */
  lemma StoredLinksRoundTrip(xs: seq<string>)
    ensures ReadLinks(WriteLinks(xs)) == Some(xs)
    ensures ReadLinks(NullCell) == Some([]) && ReadLinks(TextCell("")) == Some([])
  {
    LinksJson.RoundTrip(xs);
  }

  /** Every row's links cell can be read back. */
  predicate Readable(rows: seq<Row>) {
    forall r :: r in rows ==> ReadLinks(r.links).Some?
  }

  /** What every store built by `insert_tournament` satisfies: ids increase
      along insertion order, none exceeds the counter, and every links cell
      reads back. */
  predicate Valid(s: Store) {
    && (forall i, j :: 0 <= i < j < |s.rows| ==> s.rows[i].id < s.rows[j].id)
    && (forall i :: 0 <= i < |s.rows| ==> 1 <= s.rows[i].id <= s.lastId)
    && Readable(s.rows)
  }

  // ---------------------------------------------------------------------
  // insert_tournament

  /** Why the insert raised: a required key is absent from the record
      (`KeyError`). */
  datatype InsertError = MissingKey(field: Field)

  /** Every required key is present, so the insert does not raise. */
  predicate HasRequiredKeys(t: Record) {
    t.name.Some? && t.sport.Some? && t.level.Some? && t.startDate.Some? && t.endDate.Some?
  }

  /** The row `insert_tournament` stores for `t` under `id`. */
  function NewRow(id: nat, t: Record, now: string): Row
    requires HasRequiredKeys(t)
  {
    Row(id, t.name.value, t.sport.value, t.level.value,
        t.startDate.value, t.endDate.value,
        t.officialUrl.GetOr(""),
        WriteLinks(t.streamingLinks.GetOr([])),
        t.imageUrl.GetOr(""),
        t.summary.GetOr(""),
        now, now)
  }

  /** `insert_tournament`: the five required keys are read in order and an
      absent one raises; nothing else about the record is checked. The new
      row is appended under the next id, with `now` as both timestamps, and
      the id is returned. */
  function Insert(store: Store, t: Record, now: string): (r: Result<(Store, nat), InsertError>)
    ensures r.Success? <==> HasRequiredKeys(t)
    ensures r.Failure? ==> Lookup(t, r.error.field).None?
    ensures r.Success? ==>
      && r.value.1 > store.lastId
      && r.value.0.lastId == r.value.1
      && |r.value.0.rows| == |store.rows| + 1
      && r.value.0.rows[..|store.rows|] == store.rows
      && r.value.0.rows[|store.rows|].id == r.value.1
  {
    if t.name.None? then Failure(MissingKey(Name))
    else if t.sport.None? then Failure(MissingKey(Sport))
    else if t.level.None? then Failure(MissingKey(Level))
    else if t.startDate.None? then Failure(MissingKey(StartDate))
    else if t.endDate.None? then Failure(MissingKey(EndDate))
    else
      var id := store.lastId + 1;
      Success((Store(store.rows + [NewRow(id, t, now)], id), id))
  }

  /** The inserted row carries the record's five required values, the empty
      string for an absent URL, image or summary, the record's links (the
      empty list when absent) as a cell that reads back to them, and `now`
      as both timestamps. */
  lemma InsertDefaults(store: Store, t: Record, now: string)
    requires Insert(store, t, now).Success?
    ensures var row := Insert(store, t, now).value.0.rows[|store.rows|];
      && row.name == t.name.value && row.sport == t.sport.value && row.level == t.level.value
      && row.startDate == t.startDate.value && row.endDate == t.endDate.value
      && (t.officialUrl.None? ==> row.officialUrl == "")
      && (t.imageUrl.None? ==> row.imageUrl == "")
      && (t.summary.None? ==> row.summary == "")
      && ReadLinks(row.links) == Some(if t.streamingLinks.Some? then t.streamingLinks.value else [])
      && row.createdAt == now && row.updatedAt == now
  {
    StoredLinksRoundTrip(t.streamingLinks.GetOr([]));
  }

  /** Inserting into a valid store keeps it valid, and the new id is larger
      than every id already in the table. */
  lemma InsertPreservesValid(store: Store, t: Record, now: string)
    requires Valid(store)
    requires Insert(store, t, now).Success?
    ensures Valid(Insert(store, t, now).value.0)
    ensures forall i :: 0 <= i < |store.rows| ==> store.rows[i].id < Insert(store, t, now).value.1
  {
    var (s', id) := Insert(store, t, now).value;
    StoredLinksRoundTrip(t.streamingLinks.GetOr([]));
    assert s'.rows == store.rows + [s'.rows[|store.rows|]];
    forall r | r in s'.rows
      ensures ReadLinks(r.links).Some?
    {
      if r !in store.rows {
        assert r == s'.rows[|store.rows|];
      }
    }
  }

  /** The insert does not validate: a record with every required key
      present is stored even with an unknown sport and empty names. */
  lemma InsertDoesNotValidate(now: string)
    ensures Insert(EmptyStore, FullRecord("", "Darts", "", "not a date", ""), now).Success?
    ensures !Validate(FullRecord("", "Darts", "", "not a date", ""))
  {
  }

  // ---------------------------------------------------------------------
  // Query results

  /** The insertion timestamps `get_all_tournaments` reports. */
  datatype Stamps = Stamps(createdAt: string, updatedAt: string)

  /** One tournament as a query returns it: the row with its links read
      back, and its timestamps when the query reports them. */
  datatype Tournament = Tournament(
    id: nat,
    name: string,
    sport: string,
    level: string,
    startDate: string,
    endDate: string,
    officialUrl: string,
    links: seq<string>,
    imageUrl: string,
    summary: string,
    stamps: Option<Stamps>)

  /** Why a query raised: the named row's links cell is not readable. */
  datatype QueryError = UnreadableLinks(id: nat)

  function View(r: Row, links: seq<string>, withStamps: bool): Tournament {
    Tournament(r.id, r.name, r.sport, r.level, r.startDate, r.endDate,
               r.officialUrl, links, r.imageUrl, r.summary,
               if withStamps then Some(Stamps(r.createdAt, r.updatedAt)) else None)
  }

  /** The result loop of both queries: each fetched row, in order, as a
      tournament; the first unreadable links cell raises. */
  function ViewAll(rows: seq<Row>, withStamps: bool): (r: Result<seq<Tournament>, QueryError>)
    ensures r.Success? <==> Readable(rows)
    ensures r.Success? ==> |r.value| == |rows| && forall i :: 0 <= i < |rows| ==>
      ReadLinks(rows[i].links).Some? && r.value[i] == View(rows[i], ReadLinks(rows[i].links).value, withStamps)
    ensures r.Failure? ==> exists i :: 0 <= i < |rows| && rows[i].id == r.error.id && ReadLinks(rows[i].links).None?
  {
    if |rows| == 0 then Success([])
    else
      match ReadLinks(rows[0].links)
      case None => Failure(UnreadableLinks(rows[0].id))
      case Some(links) =>
        match ViewAll(rows[1..], withStamps)
        case Failure(e) =>
          assert exists i :: 0 <= i < |rows| && rows[i].id == e.id && ReadLinks(rows[i].links).None? by {
            var j :| 0 <= j < |rows[1..]| && rows[1..][j].id == e.id && ReadLinks(rows[1..][j].links).None?;
            assert rows[j + 1] == rows[1..][j];
          }
          Failure(e)
        case Success(rest) =>
          assert forall r :: r in rows ==> r == rows[0] || r in rows[1..];
          var vs := [View(rows[0], links, withStamps)] + rest;
          assert forall i :: 1 <= i < |rows| ==> vs[i] == rest[i - 1] && rows[i] == rows[1..][i - 1];
          Success(vs)
  }

  /** The same tournament without its timestamps. */
  function Unstamped(t: Tournament): Tournament {
    t.(stamps := None)
  }

  function UnstampedAll(ts: seq<Tournament>): (r: seq<Tournament>)
    ensures |r| == |ts| && forall i :: 0 <= i < |ts| ==> r[i] == Unstamped(ts[i])
  {
    if |ts| == 0 then [] else [Unstamped(ts[0])] + UnstampedAll(ts[1..])
  }

  // ---------------------------------------------------------------------
  // ORDER BY start_date

  /** Rows in non-decreasing `start_date` under the BINARY collation. */
  predicate SortedByStart(rows: seq<Row>) {
    forall i, j :: 0 <= i < j < |rows| ==> TextLe(rows[i].startDate, rows[j].startDate)
  }

  /** Tournaments in non-decreasing `start_date` under the BINARY collation. */
  predicate StartsSorted(ts: seq<Tournament>) {
    forall i, j :: 0 <= i < j < |ts| ==> TextLe(ts[i].startDate, ts[j].startDate)
  }

  /** `x` placed before the first row that does not start earlier. */
  function Insort(x: Row, s: seq<Row>): (r: seq<Row>)
    ensures multiset(r) == multiset(s) + multiset{x}
  {
    if |s| == 0 then [x]
    else if TextLe(x.startDate, s[0].startDate) then [x] + s
    else
      assert s == [s[0]] + s[1..];
      [s[0]] + Insort(x, s[1..])
  }

  /** The row order `ORDER BY start_date` produces. SQLite leaves the order
      of equal dates open; this sort keeps them in insertion order. */
  function SortRows(s: seq<Row>): (r: seq<Row>)
    ensures multiset(r) == multiset(s)
  {
    if |s| == 0 then []
    else
      assert s == [s[0]] + s[1..];
      Insort(s[0], SortRows(s[1..]))
  }

  lemma {:induction false} InsortSorted(x: Row, s: seq<Row>)
    requires SortedByStart(s)
    ensures SortedByStart(Insort(x, s))
  {
    if |s| > 0 && TextLe(x.startDate, s[0].startDate) {
      forall j | 0 < j < |s|
        ensures TextLe(x.startDate, s[j].startDate)
      {
        TextLeTransitive(x.startDate, s[0].startDate, s[j].startDate);
      }
      assert Insort(x, s) == [x] + s;
    } else if |s| > 0 {
      InsortSorted(x, s[1..]);
      TextLeTotal(x.startDate, s[0].startDate);
      var t := Insort(x, s[1..]);
      forall k | 0 <= k < |t|
        ensures TextLe(s[0].startDate, t[k].startDate)
      {
        assert t[k] in multiset(t);
        if t[k] != x {
          assert t[k] in multiset(s[1..]);
          var j :| 0 <= j < |s[1..]| && s[1..][j] == t[k];
          assert s[j + 1] == t[k];
        }
      }
      var r := Insort(x, s);
      assert r == [s[0]] + t;
      forall i, j | 0 <= i < j < |r|
        ensures TextLe(r[i].startDate, r[j].startDate)
      {
        if i == 0 {
          assert r[j] == t[j - 1];
        } else {
          assert r[i] == t[i - 1] && r[j] == t[j - 1];
        }
      }
    }
  }

  /** `ORDER BY start_date` yields non-decreasing start dates. */
  lemma {:induction false} SortRowsSorted(s: seq<Row>)
    ensures SortedByStart(SortRows(s))
  {
    if |s| > 0 {
      SortRowsSorted(s[1..]);
      InsortSorted(s[0], SortRows(s[1..]));
    }
  }

  // ---------------------------------------------------------------------
  // WHERE sport = ? AND level = ?

  /** The filter's condition: each argument constrains its column only
      when it is truthy (present and non-empty). */
  predicate Matches(sport: string, level: string, wantSport: Option<string>, wantLevel: Option<string>) {
    && (Filled(wantSport) ==> sport == wantSport.value)
    && (Filled(wantLevel) ==> level == wantLevel.value)
  }

  /** The rows the WHERE clause keeps, in their original order. */
  function SelectRows(rows: seq<Row>, wantSport: Option<string>, wantLevel: Option<string>): seq<Row> {
    if |rows| == 0 then []
    else
      (if Matches(rows[0].sport, rows[0].level, wantSport, wantLevel) then [rows[0]] else [])
        + SelectRows(rows[1..], wantSport, wantLevel)
  }

  /** The tournaments that meet the filter's condition, in their original order. */
  function SelectTournaments(ts: seq<Tournament>, wantSport: Option<string>, wantLevel: Option<string>): seq<Tournament> {
    if |ts| == 0 then []
    else
      (if Matches(ts[0].sport, ts[0].level, wantSport, wantLevel) then [ts[0]] else [])
        + SelectTournaments(ts[1..], wantSport, wantLevel)
  }

  /** A row that starts no later than every row of `t` goes to the front. */
  lemma InsortFront(x: Row, t: seq<Row>)
    requires forall y :: y in t ==> TextLe(x.startDate, y.startDate)
    ensures Insort(x, t) == [x] + t
  {
    if |t| > 0 {
      assert t[0] in t;
    }
  }

  /** Selecting from a row followed by more rows. */
  lemma SelectCons(y: Row, s: seq<Row>, wantSport: Option<string>, wantLevel: Option<string>)
    ensures SelectRows([y] + s, wantSport, wantLevel)
      == (if Matches(y.sport, y.level, wantSport, wantLevel) then [y] else []) + SelectRows(s, wantSport, wantLevel)
  {
    assert ([y] + s)[0] == y;
    assert ([y] + s)[1..] == s;
  }

  /** A row that starts after `y` is placed after `y`. */
  lemma InsortCons(x: Row, y: Row, s: seq<Row>)
    requires !TextLe(x.startDate, y.startDate)
    ensures Insort(x, [y] + s) == [y] + Insort(x, s)
  {
    assert ([y] + s)[0] == y;
    assert ([y] + s)[1..] == s;
  }

  /** The WHERE clause keeps exactly the rows that meet the condition. */
  lemma {:induction false} SelectRowsMembers(rows: seq<Row>, wantSport: Option<string>, wantLevel: Option<string>)
    ensures forall x :: x in SelectRows(rows, wantSport, wantLevel) <==> x in rows && Matches(x.sport, x.level, wantSport, wantLevel)
  {
    if |rows| > 0 {
      SelectRowsMembers(rows[1..], wantSport, wantLevel);
      assert forall x :: x in rows <==> x == rows[0] || x in rows[1..];
    }
  }

  /** The selection keeps exactly the tournaments that meet the condition. */
  lemma {:induction false} SelectTournamentsMembers(ts: seq<Tournament>, sport: Option<string>, level: Option<string>)
    ensures forall t :: t in SelectTournaments(ts, sport, level) <==> t in ts && Matches(t.sport, t.level, sport, level)
  {
    if |ts| > 0 {
      SelectTournamentsMembers(ts[1..], sport, level);
      assert forall t :: t in ts <==> t == ts[0] || t in ts[1..];
    }
  }

  /** Everything selected from a sorted sequence starts no earlier than its head. */
  lemma SelectedStartAfterHead(x: Row, s: seq<Row>, wantSport: Option<string>, wantLevel: Option<string>)
    requires SortedByStart(s) && |s| > 0 && TextLe(x.startDate, s[0].startDate)
    ensures forall y :: y in SelectRows(s, wantSport, wantLevel) ==> TextLe(x.startDate, y.startDate)
  {
    SelectRowsMembers(s, wantSport, wantLevel);
    forall y | y in SelectRows(s, wantSport, wantLevel)
      ensures TextLe(x.startDate, y.startDate)
    {
      var j :| 0 <= j < |s| && s[j] == y;
      if j > 0 {
        TextLeTransitive(x.startDate, s[0].startDate, y.startDate);
      }
    }
  }

  /** The selection `x` joins when placed into `s`. */
  function SelectWith(x: Row, s: seq<Row>, wantSport: Option<string>, wantLevel: Option<string>): seq<Row> {
    if Matches(x.sport, x.level, wantSport, wantLevel)
    then Insort(x, SelectRows(s, wantSport, wantLevel))
    else SelectRows(s, wantSport, wantLevel)
  }

  /** Selecting after placing `x` is placing `x` (if it matches) after selecting. */
  lemma {:induction false} SelectInsort(x: Row, s: seq<Row>, wantSport: Option<string>, wantLevel: Option<string>)
    requires SortedByStart(s)
    ensures SelectRows(Insort(x, s), wantSport, wantLevel) == SelectWith(x, s, wantSport, wantLevel)
  {
    if |s| == 0 {
    } else if TextLe(x.startDate, s[0].startDate) {
      SelectInsortFront(x, s, wantSport, wantLevel);
    } else {
      var tail := s[1..];
      assert s == [s[0]] + tail;
      assert SortedByStart(tail);
      SelectInsort(x, tail, wantSport, wantLevel);
      SelectInsortLater(x, s[0], tail, wantSport, wantLevel);
    }
  }

  /** The step of `SelectInsort` where `x` goes in front of `s`. */
  lemma SelectInsortFront(x: Row, s: seq<Row>, wantSport: Option<string>, wantLevel: Option<string>)
    requires SortedByStart(s) && |s| > 0 && TextLe(x.startDate, s[0].startDate)
    ensures SelectRows(Insort(x, s), wantSport, wantLevel) == SelectWith(x, s, wantSport, wantLevel)
  {
    SelectedStartAfterHead(x, s, wantSport, wantLevel);
    InsortFront(x, SelectRows(s, wantSport, wantLevel));
    SelectCons(x, s, wantSport, wantLevel);
    assert Insort(x, s) == [x] + s;
  }

  /** The step of `SelectInsort` where `x` goes after the head `y`. */
  lemma SelectInsortLater(x: Row, y: Row, tail: seq<Row>, wantSport: Option<string>, wantLevel: Option<string>)
    requires !TextLe(x.startDate, y.startDate)
    requires SelectRows(Insort(x, tail), wantSport, wantLevel) == SelectWith(x, tail, wantSport, wantLevel)
    ensures SelectRows(Insort(x, [y] + tail), wantSport, wantLevel) == SelectWith(x, [y] + tail, wantSport, wantLevel)
  {
    var sel := SelectRows(tail, wantSport, wantLevel);
    var head: seq<Row> := if Matches(y.sport, y.level, wantSport, wantLevel) then [y] else [];
    InsortCons(x, y, tail);
    SelectCons(y, Insort(x, tail), wantSport, wantLevel);
    assert SelectRows(Insort(x, [y] + tail), wantSport, wantLevel) == head + SelectWith(x, tail, wantSport, wantLevel);
    SelectCons(y, tail, wantSport, wantLevel);
    assert SelectRows([y] + tail, wantSport, wantLevel) == head + sel;
    if head == [] {
      assert head + sel == sel;
      assert head + SelectWith(x, tail, wantSport, wantLevel) == SelectWith(x, tail, wantSport, wantLevel);
    } else if Matches(x.sport, x.level, wantSport, wantLevel) {
      InsortCons(x, y, sel);
    }
  }

  /** The WHERE clause and ORDER BY commute: sorting the selected rows is
      selecting from the sorted rows. */
  lemma {:induction false} SelectSort(s: seq<Row>, wantSport: Option<string>, wantLevel: Option<string>)
    ensures SelectRows(SortRows(s), wantSport, wantLevel) == SortRows(SelectRows(s, wantSport, wantLevel))
  {
    if |s| > 0 {
      SelectSort(s[1..], wantSport, wantLevel);
      SortRowsSorted(s[1..]);
      SelectInsort(s[0], SortRows(s[1..]), wantSport, wantLevel);
      assert SelectRows(s, wantSport, wantLevel)
        == (if Matches(s[0].sport, s[0].level, wantSport, wantLevel) then [s[0]] else [])
           + SelectRows(s[1..], wantSport, wantLevel);
      if Matches(s[0].sport, s[0].level, wantSport, wantLevel) {
        assert SelectRows(s, wantSport, wantLevel)[1..] == SelectRows(s[1..], wantSport, wantLevel);
      } else {
        assert SelectRows(s, wantSport, wantLevel) == SelectRows(s[1..], wantSport, wantLevel);
      }
    }
  }

  // ---------------------------------------------------------------------
  // The two queries

  /** `get_all_tournaments`: every row, ordered by start date, with its
      links read back and its timestamps. It raises exactly when some stored
      links cell does not read back. */
  function GetAll(store: Store): (r: Result<seq<Tournament>, QueryError>)
    ensures r.Success? <==> Readable(store.rows)
    ensures r.Success? ==> |r.value| == |store.rows| && StartsSorted(r.value)
    ensures r.Success? ==> forall i :: 0 <= i < |r.value| ==> r.value[i].stamps.Some?
  {
    SortedRowsReadable(store.rows);
    var p := SortRows(store.rows);
    var r := ViewAll(p, true);
    if r.Success? then ViewSorted(p, true); r else r
  }

  /** `filter_tournaments(sport, level)`: the matching rows, ordered by start
      date, with their links read back and no timestamps. It raises exactly
      when some matching row's links cell does not read back. */
  function FilterTournaments(store: Store, sport: Option<string>, level: Option<string>): (r: Result<seq<Tournament>, QueryError>)
    ensures r.Success? <==> Readable(SelectRows(store.rows, sport, level))
    ensures r.Success? ==> |r.value| == |SelectRows(store.rows, sport, level)| && StartsSorted(r.value)
    ensures r.Success? ==> forall i :: 0 <= i < |r.value| ==>
      r.value[i].stamps.None? && Matches(r.value[i].sport, r.value[i].level, sport, level)
  {
    var q := SelectRows(store.rows, sport, level);
    SortedRowsReadable(q);
    SortedSelectionMatches(store.rows, sport, level);
    var p := SortRows(q);
    var r := ViewAll(p, false);
    if r.Success? then ViewSorted(p, false); r else r
  }

  /** Sorting keeps the rows' number and whether they all read back, and
      puts them in start-date order. */
  lemma SortedRowsReadable(rows: seq<Row>)
    ensures |SortRows(rows)| == |rows|
    ensures Readable(SortRows(rows)) <==> Readable(rows)
    ensures SortedByStart(SortRows(rows))
  {
    ReadablePermutation(SortRows(rows), rows);
    SortRowsSorted(rows);
    assert |multiset(SortRows(rows))| == |multiset(rows)|;
  }

  /** Every row of the sorted selection meets the filter's condition. */
  lemma SortedSelectionMatches(rows: seq<Row>, sport: Option<string>, level: Option<string>)
    ensures forall i :: 0 <= i < |SortRows(SelectRows(rows, sport, level))| ==>
      var x := SortRows(SelectRows(rows, sport, level))[i]; Matches(x.sport, x.level, sport, level)
  {
    var q := SelectRows(rows, sport, level);
    var p := SortRows(q);
    SelectRowsMembers(rows, sport, level);
    assert forall i :: 0 <= i < |p| ==> p[i] in multiset(q);
  }

  /** Viewing rows in start-date order gives tournaments in start-date order. */
  lemma ViewSorted(p: seq<Row>, withStamps: bool)
    requires SortedByStart(p) && Readable(p)
    ensures StartsSorted(ViewAll(p, withStamps).value)
  {
    var r := ViewAll(p, withStamps).value;
    assert forall i :: 0 <= i < |r| ==> r[i].startDate == p[i].startDate;
  }

  /** Rows that are a permutation of readable rows are readable. */
  lemma ReadablePermutation(a: seq<Row>, b: seq<Row>)
    requires multiset(a) == multiset(b)
    ensures Readable(a) <==> Readable(b)
  {
    assert forall r :: r in a <==> r in multiset(a);
    assert forall r :: r in b <==> r in multiset(b);
  }

  /** `get_all_tournaments` succeeds exactly when every stored links cell
      reads back, and then returns one tournament per stored row — a
      permutation of the rows, each with its own links and timestamps —
      ordered by start date. */
  lemma GetAllSpec(store: Store)
    ensures GetAll(store).Success? <==> Readable(store.rows)
    ensures GetAll(store).Success? ==>
      var r := GetAll(store).value;
      && StartsSorted(r)
      && exists p: seq<Row> :: multiset(p) == multiset(store.rows) && Readable(p) && |p| == |r|
           && forall i :: 0 <= i < |r| ==> r[i] == View(p[i], ReadLinks(p[i].links).value, true)
  {
    var p := SortRows(store.rows);
    ReadablePermutation(p, store.rows);
    SortRowsSorted(store.rows);
    if GetAll(store).Success? {
      var r := GetAll(store).value;
      assert forall i :: 0 <= i < |r| ==> r[i].startDate == p[i].startDate;
      assert forall i :: 0 <= i < |p| ==> p[i] in p;
    }
  }

  /** Viewing a readable row followed by more rows. */
  lemma ViewAllCons(y: Row, s: seq<Row>, withStamps: bool)
    requires Readable([y] + s)
    ensures Readable(s)
    ensures ViewAll([y] + s, withStamps)
      == Success([View(y, ReadLinks(y.links).value, withStamps)] + ViewAll(s, withStamps).value)
  {
    assert ([y] + s)[0] == y;
    assert ([y] + s)[1..] == s;
    assert forall r :: r in s ==> r in [y] + s;
  }

  /** Selecting from a tournament followed by more tournaments. */
  lemma SelectTournamentsCons(t: Tournament, ts: seq<Tournament>, wantSport: Option<string>, wantLevel: Option<string>)
    ensures SelectTournaments([t] + ts, wantSport, wantLevel)
      == (if Matches(t.sport, t.level, wantSport, wantLevel) then [t] else []) + SelectTournaments(ts, wantSport, wantLevel)
  {
    assert ([t] + ts)[0] == t;
    assert ([t] + ts)[1..] == ts;
  }

  /** Dropping timestamps distributes over concatenation. */
  lemma UnstampedAppend(a: seq<Tournament>, b: seq<Tournament>)
    ensures UnstampedAll(a + b) == UnstampedAll(a) + UnstampedAll(b)
  {
  }

  /** Viewing the selected rows is selecting from the viewed rows, without
      their timestamps. */
  lemma {:induction false} ViewSelect(rows: seq<Row>, wantSport: Option<string>, wantLevel: Option<string>)
    requires Readable(rows)
    ensures ViewAll(SelectRows(rows, wantSport, wantLevel), false)
      == Success(UnstampedAll(SelectTournaments(ViewAll(rows, true).value, wantSport, wantLevel)))
  {
    if |rows| > 0 {
      var y, tail := rows[0], rows[1..];
      assert rows == [y] + tail;
      ViewAllCons(y, tail, true);
      ViewSelect(tail, wantSport, wantLevel);
      var vy := View(y, ReadLinks(y.links).value, true);
      var vt := ViewAll(tail, true).value;
      var selRows := SelectRows(tail, wantSport, wantLevel);
      var selViews := SelectTournaments(vt, wantSport, wantLevel);
      SelectCons(y, tail, wantSport, wantLevel);
      SelectTournamentsCons(vy, vt, wantSport, wantLevel);
      if Matches(y.sport, y.level, wantSport, wantLevel) {
        assert SelectRows(rows, wantSport, wantLevel) == [y] + selRows;
        assert SelectTournaments([vy] + vt, wantSport, wantLevel) == [vy] + selViews;
        SelectRowsMembers(tail, wantSport, wantLevel);
        assert Readable([y] + selRows);
        ViewAllCons(y, selRows, false);
        UnstampedAppend([vy], selViews);
      } else {
        assert SelectRows(rows, wantSport, wantLevel) == selRows;
        assert SelectTournaments([vy] + vt, wantSport, wantLevel) == selViews;
      }
    }
  }

  /** `filter_tournaments(sport, level)` returns exactly the tournaments of
      `get_all_tournaments` that meet the condition, in the same order and
      without timestamps. */
  lemma FilterIsSelectionOfGetAll(store: Store, sport: Option<string>, level: Option<string>)
    requires Readable(store.rows)
    ensures GetAll(store).Success? && FilterTournaments(store, sport, level).Success?
    ensures FilterTournaments(store, sport, level).value
      == UnstampedAll(SelectTournaments(GetAll(store).value, sport, level))
  {
    var p := SortRows(store.rows);
    ReadablePermutation(p, store.rows);
    SelectSort(store.rows, sport, level);
    ViewSelect(p, sport, level);
  }

  /** Every condition-free selection keeps everything. */
  lemma SelectNothing(ts: seq<Tournament>, sport: Option<string>, level: Option<string>)
    requires !Filled(sport) && !Filled(level)
    ensures SelectTournaments(ts, sport, level) == ts
  {
  }

  /** With neither argument truthy the filter returns what
      `get_all_tournaments` returns, without the timestamps. */
  lemma FilterWithoutArguments(store: Store, sport: Option<string>, level: Option<string>)
    requires Readable(store.rows)
    requires !Filled(sport) && !Filled(level)
    ensures GetAll(store).Success?
    ensures FilterTournaments(store, sport, level) == Success(UnstampedAll(GetAll(store).value))
  {
    FilterIsSelectionOfGetAll(store, sport, level);
    SelectNothing(GetAll(store).value, sport, level);
  }

  /** Both queries on an empty table return the empty list. */
  lemma EmptyStoreQueries(lastId: nat, sport: Option<string>, level: Option<string>)
    ensures GetAll(Store([], lastId)) == Success([])
    ensures FilterTournaments(Store([], lastId), sport, level) == Success([])
  {
  }

  /** A row inserted into a valid table comes back from
      `get_all_tournaments` under its new id, with the record's values, the
      defaults for absent optional keys, its links in order, and `now` as
      both timestamps. */
  lemma InsertThenGetAll(store: Store, t: Record, now: string)
    requires Valid(store)
    requires Insert(store, t, now).Success?
    ensures var (s', id) := Insert(store, t, now).value;
      && GetAll(s').Success?
      && Tournament(id, t.name.value, t.sport.value, t.level.value,
                    t.startDate.value, t.endDate.value,
                    t.officialUrl.GetOr(""), t.streamingLinks.GetOr([]),
                    t.imageUrl.GetOr(""), t.summary.GetOr(""),
                    Some(Stamps(now, now))) in GetAll(s').value
  {
    var (s', id) := Insert(store, t, now).value;
    InsertPreservesValid(store, t, now);
    InsertDefaults(store, t, now);
    GetAllContains(s', s'.rows[|store.rows|]);
  }

  /** Every stored row of a readable table is in the unfiltered result. */
  lemma GetAllContains(s: Store, row: Row)
    requires Readable(s.rows) && row in s.rows
    ensures ReadLinks(row.links).Some?
    ensures GetAll(s).Success? && View(row, ReadLinks(row.links).value, true) in GetAll(s).value
  {
    var p := SortRows(s.rows);
    ReadablePermutation(p, s.rows);
    assert row in multiset(s.rows);
    assert row in multiset(p);
    var k :| 0 <= k < |p| && p[k] == row;
    var r := ViewAll(p, true).value;
    assert r[k] == View(row, ReadLinks(row.links).value, true);
  }

  /** Inserting the five-key "Test Cup" record into a fresh table gives it
      id 1, and it reads back with `''` for the absent texts and no links. */
  lemma InsertExample(now: string)
    ensures var t := FullRecord("Test Cup", "Chess", "State", "2025-06-01", "2025-06-10")
      .(officialUrl := None, streamingLinks := None, imageUrl := None, summary := None);
      && Insert(EmptyStore, t, now).Success?
      && Insert(EmptyStore, t, now).value.1 == 1
      && GetAll(Insert(EmptyStore, t, now).value.0)
         == Success([Tournament(1, "Test Cup", "Chess", "State", "2025-06-01", "2025-06-10",
                                "", [], "", "", Some(Stamps(now, now)))])
  {
    var t := FullRecord("Test Cup", "Chess", "State", "2025-06-01", "2025-06-10")
      .(officialUrl := None, streamingLinks := None, imageUrl := None, summary := None);
    var row := NewRow(1, t, now);
    assert Insert(EmptyStore, t, now).value.0.rows == [row];
    assert LinksJson.Encode([]) == "[]";
    assert ReadLinks(row.links) == Some([]);
    assert SortRows([row]) == [row];
    assert Readable([row]);
    var v := ViewAll([row], true).value;
    assert |v| == 1 && v[0] == View(row, [], true);
    assert v == [View(row, [], true)];
  }
}

=== FILE: links_json.dfy ===
/** The JSON text the store keeps in the `streaming_links` column: a list
    of strings written as by `json.dumps(links)` and read back as by
    `json.loads`. The encoder uses the separator `", "` and the
    two-character escapes `json.dumps` writes; the decoder reads that
    layout back. */
module LinksJson {
  import opened Wrappers

  /** The letter after the backslash in the two-character escape
      `json.dumps` writes for `c`, if it has one. */
  function EscapeLetter(c: char): Option<char> {
    if c == '"' then Some('"')
    else if c == '\\' then Some('\\')
    else if c == '\n' then Some('n')
    else if c == '\r' then Some('r')
    else if c == '\t' then Some('t')
    else if c == '\U{8}' then Some('b')
    else if c == '\U{C}' then Some('f')
    else None
  }

  /** The character a two-character escape `\l` stands for, if `l` names one. */
  function Unescape(l: char): (r: Option<char>)
    ensures r.Some? ==> EscapeLetter(r.value) == Some(l)
  {
    if l == '"' then Some('"')
    else if l == '\\' then Some('\\')
    else if l == 'n' then Some('\n')
    else if l == 'r' then Some('\r')
    else if l == 't' then Some('\t')
    else if l == 'b' then Some('\U{8}')
    else if l == 'f' then Some('\U{C}')
    else None
  }

  /** The escape letters and the escaped characters are in one-to-one correspondence. */
  lemma EscapeLetterInverse(c: char, l: char)
    ensures EscapeLetter(c) == Some(l) <==> Unescape(l) == Some(c)
  {
  }

  function EscapeChar(c: char): string {
    match EscapeLetter(c)
    case Some(l) => ['\\', l]
    case None => [c]
  }

  /** The body of the JSON string literal for `s`. */
  function Escape(s: string): (r: string)
    ensures forall i :: 0 <= i < |r| && r[i] == '"' ==> 0 < i && r[i - 1] == '\\'
  {
    if |s| == 0 then "" else EscapeChar(s[0]) + Escape(s[1..])
  }

  /** The JSON string literal for `s`. */
  function Quote(s: string): string {
    "\"" + Escape(s) + "\""
  }

  /** The elements of a JSON list, separated by `", "`. */
  function EncodeItems(xs: seq<string>): string {
    if |xs| == 0 then ""
    else if |xs| == 1 then Quote(xs[0])
    else Quote(xs[0]) + ", " + EncodeItems(xs[1..])
  }

  /** `json.dumps(xs)` for a list of strings. */
  function Encode(xs: seq<string>): (r: string)
    ensures |r| >= 2 && r[0] == '[' && r[|r| - 1] == ']'
  {
    "[" + EncodeItems(xs) + "]"
  }

  /** Reads the body of a string literal up to its closing quote: the
      decoded characters and the text after the quote. */
  function DecodeChars(t: string): (r: Option<(string, string)>)
    ensures r.Some? ==> |r.value.1| < |t|
    decreases |t|
  {
    if |t| == 0 then None
    else if t[0] == '"' then Some(("", t[1..]))
    else if t[0] == '\\' then
      if |t| < 2 then None
      else
        match Unescape(t[1])
        case None => None
        case Some(c) =>
          match DecodeChars(t[2..])
          case None => None
          case Some((body, rest)) => Some(([c] + body, rest))
    else
      match DecodeChars(t[1..])
      case None => None
      case Some((body, rest)) => Some(([t[0]] + body, rest))
  }

  /** Reads one string literal at the head of `t`. */
  function DecodeString(t: string): (r: Option<(string, string)>)
    ensures r.Some? ==> |r.value.1| < |t|
  {
    if |t| > 0 && t[0] == '"' then DecodeChars(t[1..]) else None
  }

  /** Reads the elements of a non-empty list and its closing bracket. */
  function DecodeItems(t: string): (r: Option<seq<string>>)
    ensures r.Some? ==> |r.value| >= 1
    decreases |t|
  {
    match DecodeString(t)
    case None => None
    case Some((x, rest)) =>
      if rest == "]" then Some([x])
      else if |rest| >= 2 && rest[..2] == ", " then
        match DecodeItems(rest[2..])
        case None => None
        case Some(xs) => Some([x] + xs)
      else None
  }

  /** `json.loads(s)` for the list layout `Encode` writes; `None` is the
      `JSONDecodeError` raised for anything else. Only text in square
      brackets reads back as a list. */
  function Decode(s: string): (r: Option<seq<string>>)
    ensures r.Some? ==> |s| >= 2 && s[0] == '[' && s[|s| - 1] == ']'
  {
    if s == "[]" then Some([])
    else if |s| > 0 && s[0] == '[' then DecodeItemsClosed(s[1..]); DecodeItems(s[1..])
    else None
  }

  /** What follows a string literal's body is a suffix of the text read. */
  lemma {:induction false} DecodeCharsSuffix(t: string)
    requires DecodeChars(t).Some?
    ensures var rest := DecodeChars(t).value.1; rest == t[|t| - |rest|..]
    decreases |t|
  {
    if t[0] != '"' {
      var k := if t[0] == '\\' then 2 else 1;
      DecodeCharsSuffix(t[k..]);
      assert DecodeChars(t).value.1 == DecodeChars(t[k..]).value.1;
    }
  }

  /** A list's elements read back only when the text ends with its closing bracket. */
  lemma {:induction false} DecodeItemsClosed(t: string)
    ensures DecodeItems(t).Some? ==> |t| >= 1 && t[|t| - 1] == ']'
    decreases |t|
  {
    if DecodeItems(t).Some? {
      DecodeCharsSuffix(t[1..]);
      var rest := DecodeString(t).value.1;
      assert rest == t[|t| - |rest|..];
      if rest != "]" {
        DecodeItemsClosed(rest[2..]);
        assert rest[2..] == t[|t| - |rest| + 2..];
      }
    }
  }

  lemma {:induction false} DecodeEscaped(x: string, rest: string)
    ensures DecodeChars(Escape(x) + "\"" + rest) == Some((x, rest))
    decreases |x|
  {
    if |x| == 0 {
      assert Escape(x) + "\"" + rest == "\"" + rest;
    } else {
      var t := Escape(x) + "\"" + rest;
      DecodeEscaped(x[1..], rest);
      match EscapeLetter(x[0])
      case Some(l) =>
        assert t == ['\\', l] + (Escape(x[1..]) + "\"" + rest);
        assert t[2..] == Escape(x[1..]) + "\"" + rest;
        EscapeLetterInverse(x[0], l);
        assert x == [x[0]] + x[1..];
      case None =>
        assert t == [x[0]] + (Escape(x[1..]) + "\"" + rest);
        assert t[1..] == Escape(x[1..]) + "\"" + rest;
        assert x == [x[0]] + x[1..];
    }
  }

  lemma DecodeQuoted(x: string, rest: string)
    ensures DecodeString(Quote(x) + rest) == Some((x, rest))
  {
    assert (Quote(x) + rest)[1..] == Escape(x) + "\"" + rest;
    DecodeEscaped(x, rest);
  }

  lemma {:induction false} DecodeEncodedItems(xs: seq<string>)
    requires |xs| >= 1
    ensures DecodeItems(EncodeItems(xs) + "]") == Some(xs)
  {
    if |xs| == 1 {
      DecodeQuoted(xs[0], "]");
      assert xs == [xs[0]];
    } else {
      var tail := EncodeItems(xs[1..]) + "]";
      assert EncodeItems(xs) + "]" == Quote(xs[0]) + (", " + tail);
      DecodeEncodedItems(xs[1..]);
      DecodeItemsCons(xs[0], tail, xs[1..]);
      assert xs == [xs[0]] + xs[1..];
    }
  }

  /** A quoted element and the separator in front of a list tail that
      reads back. */
  lemma DecodeItemsCons(x: string, tail: string, ys: seq<string>)
    requires DecodeItems(tail) == Some(ys)
    ensures DecodeItems(Quote(x) + (", " + tail)) == Some([x] + ys)
  {
    var rest := ", " + tail;
    DecodeQuoted(x, rest);
    assert rest[..2] == ", " && rest[2..] == tail;
    assert rest != "]" by {
      assert rest[0] == ',';
    }
  }

  /** `json.loads(json.dumps(xs)) == xs`: the stored links come back as the
      same list, in the same order. */
  lemma RoundTrip(xs: seq<string>)
    ensures Decode(Encode(xs)) == Some(xs)
  {
    if |xs| > 0 {
      DecodeEncodedItems(xs);
      assert Encode(xs)[1..] == EncodeItems(xs) + "]";
    }
  }

  /** Distinct lists are stored as distinct text. */
  lemma EncodeInjective(xs: seq<string>, ys: seq<string>)
    requires Encode(xs) == Encode(ys)
    ensures xs == ys
  {
    RoundTrip(xs);
    RoundTrip(ys);
  }
}

=== FILE: seeding.dfy ===
/** Start-up seeding: an empty table is filled with the generated sample
    records that pass the validator; a table that already holds rows is
    left alone. */
module Seeding {
  import opened Wrappers
  import opened Calendar
  import opened Collector
  import opened Database

  /** What start-up reports: the number of generated records after
      populating, or the number of rows already present. */
  datatype SeedReport = Populated(reported: nat) | AlreadyHolds(count: nat)

  /** The generated records the validator accepts, each with the
      timestamp its insert would receive, in generator order. */
  function Kept(recs: seq<Record>, stamps: seq<string>): (r: seq<(Record, string)>)
    requires |stamps| == |recs|
    ensures |r| <= |recs|
  {
    if |recs| == 0 then []
    else
      var rest := Kept(recs[1..], stamps[1..]);
      if Validate(recs[0]) then [(recs[0], stamps[0])] + rest else rest
  }

  /** `kept` is the pairs `(recs[i], stamps[i])` at the strictly
      increasing input positions `idx`. */
  predicate TakenInOrder(kept: seq<(Record, string)>, recs: seq<Record>, stamps: seq<string>, idx: seq<int>)
    requires |stamps| == |recs|
  {
    && |idx| == |kept|
    && (forall k :: 0 <= k < |idx| ==> 0 <= idx[k] < |recs| && kept[k] == (recs[idx[k]], stamps[idx[k]]))
    && (forall k, l :: 0 <= k < l < |idx| ==> idx[k] < idx[l])
  }

  /** The kept records are exactly the accepted ones, in generator order:
      each kept pair is an input record with its own timestamp, taken at
      increasing input positions, and a position is taken exactly when the
      validator accepts its record; each kept record is accepted; and each
      accepted record is kept with its own timestamp. */
  lemma {:induction false} KeptAccepted(recs: seq<Record>, stamps: seq<string>)
    requires |stamps| == |recs|
    ensures exists idx: seq<int> ::
      && TakenInOrder(Kept(recs, stamps), recs, stamps, idx)
      && (forall i :: 0 <= i < |recs| ==> (i in idx <==> Validate(recs[i])))
    ensures forall k :: 0 <= k < |Kept(recs, stamps)| ==> Validate(Kept(recs, stamps)[k].0)
    ensures forall i :: 0 <= i < |recs| && Validate(recs[i]) ==> (recs[i], stamps[i]) in Kept(recs, stamps)
  {
    var idx := KeptPositions(recs, stamps);
    KeptAreAccepted(recs, stamps);
    AcceptedAreKept(recs, stamps);
  }

  /** A record generated twice with the same timestamp is inserted twice. */
  lemma RepeatedPairsKept(a: Record, stamp: string)
    requires Validate(a)
    ensures Kept([a, a], [stamp, stamp]) == [(a, stamp), (a, stamp)]
  {
    assert [a, a][1..] == [a];
    assert [stamp, stamp][1..] == [stamp];
  }

  /** The input positions the kept pairs come from: those of the accepted
      records. */
  lemma {:induction false} KeptPositions(recs: seq<Record>, stamps: seq<string>) returns (idx: seq<int>)
    requires |stamps| == |recs|
    ensures TakenInOrder(Kept(recs, stamps), recs, stamps, idx)
    ensures forall i :: 0 <= i < |recs| ==> (i in idx <==> Validate(recs[i]))
  {
    if |recs| == 0 {
      idx := [];
    } else {
      var rest := KeptPositions(recs[1..], stamps[1..]);
      var tail := Kept(recs[1..], stamps[1..]);
      var shifted := TakenShift(tail, recs, stamps, rest);
      if Validate(recs[0]) {
        KeptStep(recs, stamps);
        idx := TakenPrepend(tail, recs, stamps, shifted);
      } else {
        idx := shifted;
      }
      forall i | 0 <= i < |recs|
        ensures i in idx <==> Validate(recs[i])
      {
        if i == 0 {
          assert 0 !in shifted;
        } else {
          assert recs[i] == recs[1..][i - 1];
          assert i in idx <==> i in shifted;
        }
      }
    }
  }

  /** Positions in the input's tail, moved one place right, are positions
      in the input. */
  lemma TakenShift(kept: seq<(Record, string)>, recs: seq<Record>, stamps: seq<string>, rest: seq<int>)
      returns (shifted: seq<int>)
    requires |stamps| == |recs| > 0
    requires TakenInOrder(kept, recs[1..], stamps[1..], rest)
    ensures TakenInOrder(kept, recs, stamps, shifted)
    ensures forall k :: 0 <= k < |shifted| ==> shifted[k] >= 1
    ensures forall i :: 1 <= i < |recs| ==> (i in shifted <==> i - 1 in rest)
  {
    shifted := seq(|rest|, k requires 0 <= k < |rest| => rest[k] + 1);
    forall k | 0 <= k < |shifted|
      ensures 0 <= shifted[k] < |recs| && kept[k] == (recs[shifted[k]], stamps[shifted[k]])
    {
      assert recs[1..][rest[k]] == recs[shifted[k]];
      assert stamps[1..][rest[k]] == stamps[shifted[k]];
    }
  }

  /** Taking the head pair first keeps the positions increasing. */
  lemma TakenPrepend(kept: seq<(Record, string)>, recs: seq<Record>, stamps: seq<string>, shifted: seq<int>)
      returns (idx: seq<int>)
    requires |stamps| == |recs| > 0
    requires TakenInOrder(kept, recs, stamps, shifted)
    requires forall k :: 0 <= k < |shifted| ==> shifted[k] >= 1
    ensures TakenInOrder([(recs[0], stamps[0])] + kept, recs, stamps, idx)
    ensures idx == [0] + shifted
  {
    idx := [0] + shifted;
    assert forall k :: 0 < k < |idx| ==> idx[k] == shifted[k - 1];
  }

  lemma {:induction false} KeptAreAccepted(recs: seq<Record>, stamps: seq<string>)
    requires |stamps| == |recs|
    ensures forall k :: 0 <= k < |Kept(recs, stamps)| ==> Validate(Kept(recs, stamps)[k].0)
  {
    if |recs| > 0 {
      KeptAreAccepted(recs[1..], stamps[1..]);
    }
  }

  lemma {:induction false} AcceptedAreKept(recs: seq<Record>, stamps: seq<string>)
    requires |stamps| == |recs|
    ensures forall i :: 0 <= i < |recs| && Validate(recs[i]) ==> (recs[i], stamps[i]) in Kept(recs, stamps)
  {
    if |recs| > 0 {
      AcceptedAreKept(recs[1..], stamps[1..]);
      assert forall i :: 1 <= i < |recs| ==> recs[i] == recs[1..][i - 1] && stamps[i] == stamps[1..][i - 1];
    }
  }

  /** The insert loop: each record in turn is validated and, if it passes,
      inserted with its timestamp; the others are skipped. Rows already
      stored stay as they are, at most one row is added per record, and the
      id counter moves on by one per added row. */
  function InsertValid(store: Store, recs: seq<Record>, stamps: seq<string>): (r: Store)
    requires |stamps| == |recs|
    ensures |store.rows| <= |r.rows| <= |store.rows| + |recs|
    ensures r.rows[..|store.rows|] == store.rows
    ensures r.lastId == store.lastId + (|r.rows| - |store.rows|)
    decreases |recs|
  {
    if |recs| == 0 then store
    else if Validate(recs[0]) then
      var s1 := Insert(store, recs[0], stamps[0]).value.0;
      var r := InsertValid(s1, recs[1..], stamps[1..]);
      assert r.rows[..|store.rows|] == r.rows[..|s1.rows|][..|store.rows|];
      r
    else
      InsertValid(store, recs[1..], stamps[1..])
  }

  /** The rows the inserts of `kept` append, ids counting up from `first`. */
  function NewRows(first: nat, kept: seq<(Record, string)>): (r: seq<Row>)
    requires forall k :: 0 <= k < |kept| ==> HasRequiredKeys(kept[k].0)
    ensures |r| == |kept|
    decreases |kept|
  {
    if |kept| == 0 then []
    else [NewRow(first, kept[0].0, kept[0].1)] + NewRows(first + 1, kept[1..])
  }

  /** The `k`-th appended row is the row for the `k`-th kept record, under
      id `first + k`. */
  lemma {:induction false} NewRowsAt(first: nat, kept: seq<(Record, string)>)
    requires forall k :: 0 <= k < |kept| ==> HasRequiredKeys(kept[k].0)
    ensures forall k :: 0 <= k < |kept| ==> NewRows(first, kept)[k] == NewRow(first + k, kept[k].0, kept[k].1)
    decreases |kept|
  {
    if |kept| > 0 {
      NewRowsAt(first + 1, kept[1..]);
    }
  }

  /** The records the validator accepts carry every required key. */
  lemma KeptHaveKeys(recs: seq<Record>, stamps: seq<string>)
    requires |stamps| == |recs|
    ensures forall k :: 0 <= k < |Kept(recs, stamps)| ==> HasRequiredKeys(Kept(recs, stamps)[k].0)
  {
    KeptAreAccepted(recs, stamps);
  }

  /** The table after appending the rows for `kept`. */
  function AppendRows(store: Store, kept: seq<(Record, string)>): Store
    requires forall k :: 0 <= k < |kept| ==> HasRequiredKeys(kept[k].0)
  {
    Store(store.rows + NewRows(store.lastId + 1, kept), store.lastId + |kept|)
  }

  /** The loop appends exactly the accepted records, in generator order,
      under consecutive fresh ids, and changes nothing already stored. */
  lemma {:induction false} InsertValidAppendsKept(store: Store, recs: seq<Record>, stamps: seq<string>)
    requires |stamps| == |recs|
    ensures forall k :: 0 <= k < |Kept(recs, stamps)| ==> HasRequiredKeys(Kept(recs, stamps)[k].0)
    ensures InsertValid(store, recs, stamps) == AppendRows(store, Kept(recs, stamps))
    decreases |recs|
  {
    KeptHaveKeys(recs, stamps);
    if |recs| > 0 {
      KeptHaveKeys(recs[1..], stamps[1..]);
      if Validate(recs[0]) {
        InsertAppends(store, recs[0], stamps[0]);
        var s1 := Insert(store, recs[0], stamps[0]).value.0;
        InsertValidAppendsKept(s1, recs[1..], stamps[1..]);
        KeptStep(recs, stamps);
        AppendRowsCons(store, (recs[0], stamps[0]), Kept(recs[1..], stamps[1..]));
      } else {
        InsertValidAppendsKept(store, recs[1..], stamps[1..]);
      }
    }
  }

  /** The insert of a record with every key appends its row under the next id. */
  lemma InsertAppends(store: Store, t: Record, now: string)
    requires HasRequiredKeys(t)
    ensures Insert(store, t, now).value.0 == Store(store.rows + [NewRow(store.lastId + 1, t, now)], store.lastId + 1)
  {
  }

  /** Appending one row and then the rest is appending them all. */
  lemma AppendRowsCons(store: Store, head: (Record, string), rest: seq<(Record, string)>)
    requires HasRequiredKeys(head.0)
    requires forall k :: 0 <= k < |rest| ==> HasRequiredKeys(rest[k].0)
    ensures forall k :: 0 <= k < |[head] + rest| ==> HasRequiredKeys(([head] + rest)[k].0)
    ensures AppendRows(Store(store.rows + [NewRow(store.lastId + 1, head.0, head.1)], store.lastId + 1), rest)
         == AppendRows(store, [head] + rest)
  {
    NewRowsStep(store.lastId + 1, head, rest);
    AppendRowsShift(store, NewRow(store.lastId + 1, head.0, head.1), rest);
  }

  /** Appending after one more row: the row goes in front of the appended ones. */
  lemma AppendRowsShift(store: Store, row: Row, rest: seq<(Record, string)>)
    requires forall k :: 0 <= k < |rest| ==> HasRequiredKeys(rest[k].0)
    ensures AppendRows(Store(store.rows + [row], store.lastId + 1), rest)
         == Store(store.rows + ([row] + NewRows(store.lastId + 2, rest)), store.lastId + 1 + |rest|)
  {
    AppendRow(store, row, NewRows(store.lastId + 2, rest));
  }

  /** An accepted head record heads the accepted records. */
  lemma KeptStep(recs: seq<Record>, stamps: seq<string>)
    requires |stamps| == |recs| > 0 && Validate(recs[0])
    ensures Kept(recs, stamps) == [(recs[0], stamps[0])] + Kept(recs[1..], stamps[1..])
  {
  }

  lemma NewRowsStep(first: nat, head: (Record, string), rest: seq<(Record, string)>)
    requires HasRequiredKeys(head.0)
    requires forall k :: 0 <= k < |rest| ==> HasRequiredKeys(rest[k].0)
    ensures forall k :: 0 <= k < |[head] + rest| ==> HasRequiredKeys(([head] + rest)[k].0)
    ensures NewRows(first, [head] + rest) == [NewRow(first, head.0, head.1)] + NewRows(first + 1, rest)
  {
    assert ([head] + rest)[1..] == rest;
  }

  lemma AppendRow(store: Store, row: Row, more: seq<Row>)
    ensures (store.rows + [row]) + more == store.rows + ([row] + more)
  {
  }

  /** `initialize_data`, given the records the collector generates and the
      insert timestamps: seeds the table only when the unfiltered query
      finds it empty, and reports the number of generated records (not the
      number inserted); otherwise reports the number of rows present. */
  function InitializeData(store: Store, generated: seq<Record>, stamps: seq<string>): (r: Result<(Store, SeedReport), QueryError>)
    requires |stamps| == |generated|
    ensures r.Success? <==> GetAll(store).Success?
    ensures r.Success? && |store.rows| > 0 ==> r.value == (store, AlreadyHolds(|store.rows|))
    ensures r.Success? && |store.rows| == 0 ==> r.value.1 == Populated(|generated|)
  {
    match GetAll(store)
    case Failure(e) => Failure(e)
    case Success(existing) =>
      if |existing| == 0 then
        Success((InsertValid(store, generated, stamps), Populated(|generated|)))
      else
        Success((store, AlreadyHolds(|existing|)))
  }

  /** A stored row read back as a record, in the shape the validator takes. */
  function RecordOf(row: Row): Record {
    Record(Some(row.name), Some(row.sport), Some(row.level), Some(row.startDate), Some(row.endDate),
           Some(row.officialUrl), ReadLinks(row.links), Some(row.imageUrl), Some(row.summary))
  }

  /** A row stored for an accepted record is itself accepted. */
  lemma NewRowValidates(id: nat, t: Record, now: string)
    requires Validate(t)
    ensures Validate(RecordOf(NewRow(id, t, now)))
  {
  }

  /** Rows appended to an empty table form a valid table whose ids count
      up from `first`. */
  lemma NewRowsValid(lastId: nat, kept: seq<(Record, string)>)
    requires forall k :: 0 <= k < |kept| ==> HasRequiredKeys(kept[k].0)
    ensures var rows := NewRows(lastId + 1, kept);
      && Valid(Store(rows, lastId + |kept|))
      && (forall i :: 0 <= i < |rows| ==> rows[i].id == lastId + 1 + i)
  {
    NewRowsIds(lastId + 1, kept);
    NewRowsReadable(lastId + 1, kept);
    CountingIdsValid(NewRows(lastId + 1, kept), lastId);
  }

  /** Readable rows whose ids count up from `lastId + 1` form a valid table
      whose counter is the last id. */
  lemma CountingIdsValid(rows: seq<Row>, lastId: nat)
    requires Readable(rows)
    requires forall i :: 0 <= i < |rows| ==> rows[i].id == lastId + 1 + i
    ensures Valid(Store(rows, lastId + |rows|))
  {
  }

  lemma NewRowsIds(first: nat, kept: seq<(Record, string)>)
    requires forall k :: 0 <= k < |kept| ==> HasRequiredKeys(kept[k].0)
    ensures forall i :: 0 <= i < |kept| ==> NewRows(first, kept)[i].id == first + i
  {
    NewRowsAt(first, kept);
    forall i | 0 <= i < |kept|
      ensures NewRows(first, kept)[i].id == first + i
    {
      assert NewRows(first, kept)[i] == NewRow(first + i, kept[i].0, kept[i].1);
    }
  }

  lemma NewRowsReadable(first: nat, kept: seq<(Record, string)>)
    requires forall k :: 0 <= k < |kept| ==> HasRequiredKeys(kept[k].0)
    ensures Readable(NewRows(first, kept))
  {
    var rows := NewRows(first, kept);
    NewRowsAt(first, kept);
    forall r | r in rows
      ensures ReadLinks(r.links).Some?
    {
      var i :| 0 <= i < |rows| && rows[i] == r;
      assert r.links == WriteLinks(kept[i].0.streamingLinks.GetOr([]));
      StoredLinksRoundTrip(kept[i].0.streamingLinks.GetOr([]));
    }
  }

  /** The rows stored for accepted records are accepted. */
  lemma NewRowsAccepted(first: nat, kept: seq<(Record, string)>)
    requires forall k :: 0 <= k < |kept| ==> Validate(kept[k].0)
    requires forall k :: 0 <= k < |kept| ==> HasRequiredKeys(kept[k].0)
    ensures forall i :: 0 <= i < |kept| ==> Validate(RecordOf(NewRows(first, kept)[i]))
  {
    NewRowsAt(first, kept);
    forall i | 0 <= i < |kept|
      ensures Validate(RecordOf(NewRows(first, kept)[i]))
    {
      NewRowValidates(first + i, kept[i].0, kept[i].1);
    }
  }

  /** Seeding an empty table leaves a valid table every row of which the
      validator accepts, holding exactly the accepted records in generator
      order under ids following the counter; the reported figure is the
      number of generated records, never less than the number of rows added. */
  lemma SeedingFromEmpty(lastId: nat, generated: seq<Record>, stamps: seq<string>)
    requires |stamps| == |generated|
    ensures var r := InitializeData(Store([], lastId), generated, stamps);
      && r.Success?
      && var (s', report) := r.value;
      && Valid(s')
      && (forall i :: 0 <= i < |s'.rows| ==> Validate(RecordOf(s'.rows[i])))
      && |s'.rows| == |Kept(generated, stamps)|
      && (forall i :: 0 <= i < |s'.rows| ==> s'.rows[i].id == lastId + 1 + i)
      && report == Populated(|generated|) && report.reported >= |s'.rows|
  {
    var kept := Kept(generated, stamps);
    InitializeEmpty(lastId, generated, stamps);
    AppendToEmpty(lastId, kept);
    KeptAreAccepted(generated, stamps);
    NewRowsValid(lastId, kept);
    NewRowsAccepted(lastId + 1, kept);
  }

  /** Start-up on an empty table stores the accepted records, and only
      them, as fresh rows after the counter. */
  lemma InitializeEmpty(lastId: nat, generated: seq<Record>, stamps: seq<string>)
    requires |stamps| == |generated|
    ensures forall k :: 0 <= k < |Kept(generated, stamps)| ==> HasRequiredKeys(Kept(generated, stamps)[k].0)
    ensures InitializeData(Store([], lastId), generated, stamps)
        == Success((AppendRows(Store([], lastId), Kept(generated, stamps)), Populated(|generated|)))
  {
    EmptyStoreQueries(lastId, None, None);
    InsertValidAppendsKept(Store([], lastId), generated, stamps);
  }

  /** Appending to an empty table leaves exactly the appended rows. */
  lemma AppendToEmpty(lastId: nat, kept: seq<(Record, string)>)
    requires forall k :: 0 <= k < |kept| ==> HasRequiredKeys(kept[k].0)
    ensures AppendRows(Store([], lastId), kept) == Store(NewRows(lastId + 1, kept), lastId + |kept|)
  {
    EmptyPrefix(NewRows(lastId + 1, kept), lastId + |kept|);
  }

  lemma EmptyPrefix(rows: seq<Row>, lastId: nat)
    ensures Store([] + rows, lastId) == Store(rows, lastId)
  {
    assert [] + rows == rows;
  }

  /** An invalid record is skipped and the records after it are still
      inserted: seeding with it is seeding without it. */
  lemma InvalidRecordSkipped(store: Store, bad: Record, rest: seq<Record>, badStamp: string, stamps: seq<string>)
    requires !Validate(bad) && |stamps| == |rest|
    ensures InsertValid(store, [bad] + rest, [badStamp] + stamps) == InsertValid(store, rest, stamps)
  {
    assert ([bad] + rest)[1..] == rest;
    assert ([badStamp] + stamps)[1..] == stamps;
  }

  /** Start-up on an empty table with a generator run that does not
      overflow inserts all fourteen samples, under ids following the
      counter, and reports fourteen. */
  lemma SeedFromGenerator(lastId: nat, todays: seq<Date>, offsets: seq<nat>, stamps: seq<string>)
    requires ValidDates(todays) && forall i :: 0 <= i < |todays| ==> todays[i].year <= MaxYear - 2
    requires |todays| == |Templates| && |offsets| == |Templates| && |stamps| == |Templates|
    requires forall i :: 0 <= i < |offsets| ==> 1 <= offsets[i] <= 365
    ensures GenerateSampleTournaments(todays, offsets).Success?
    ensures var r := InitializeData(Store([], lastId), GenerateSampleTournaments(todays, offsets).value, stamps);
      && r.Success?
      && |r.value.0.rows| == 14
      && r.value.1 == Populated(14)
  {
    GenerateSucceeds(todays, offsets);
    var recs := GenerateSampleTournaments(todays, offsets).value;
    GeneratedRecordsValidate(todays, offsets);
    SeedingFromEmpty(lastId, recs, stamps);
    AllKept(recs, stamps);
  }

  /** When every record is accepted, every record is kept. */
  lemma {:induction false} AllKept(recs: seq<Record>, stamps: seq<string>)
    requires |stamps| == |recs|
    requires forall rec :: rec in recs ==> Validate(rec)
    ensures |Kept(recs, stamps)| == |recs|
  {
    if |recs| > 0 {
      assert recs[0] in recs;
      assert forall rec :: rec in recs[1..] ==> rec in recs;
      AllKept(recs[1..], stamps[1..]);
    }
  }
}

=== FILE: text.dfy ===
/** String operations the service borrows from Python and SQLite: the
    BINARY collation SQLite sorts TEXT by, `str.join`, `str.lower` on ASCII
    text and single-character `str.replace`. */
module Text {

  /** SQLite's BINARY collation: `memcmp` of the UTF-8 encodings, then the
      shorter first. UTF-8 preserves code-point order, so this is the
      lexicographic order of the strings as code-point sequences, with a
      proper prefix before its extensions. */
  predicate TextLe(a: string, b: string)
    decreases |a|
  {
    |a| == 0 || (|b| > 0 && (a[0] < b[0] || (a[0] == b[0] && TextLe(a[1..], b[1..]))))
  }

  /** Lexicographic order stated directly: `a` is a prefix of `b`, or at the
      first position where they differ `a` has the smaller character. */
  ghost predicate LexicographicLe(a: string, b: string) {
    (|a| <= |b| && a == b[..|a|])
    || exists k :: 0 <= k < |a| && k < |b| && a[..k] == b[..k] && a[k] < b[k]
  }

  lemma {:induction false} TextLeIsLexicographic(a: string, b: string)
    ensures TextLe(a, b) <==> LexicographicLe(a, b)
    decreases |a|
  {
    if |a| == 0 {
      assert a == b[..0];
    } else if |b| == 0 {
      assert !LexicographicLe(a, b);
    } else if a[0] < b[0] {
      assert a[..0] == b[..0];
    } else if a[0] > b[0] {
      assert forall k | 0 < k <= |a| && k <= |b| :: a[..k][0] != b[..k][0];
    } else {
      TextLeIsLexicographic(a[1..], b[1..]);
      LexicographicTail(a, b);
    }
  }

  /** Strings that agree on their first character compare as their tails do. */
  lemma LexicographicTail(a: string, b: string)
    requires |a| > 0 && |b| > 0 && a[0] == b[0]
    ensures LexicographicLe(a, b) <==> LexicographicLe(a[1..], b[1..])
  {
    if LexicographicLe(a, b) {
      LexicographicDropHead(a, b);
    }
    if LexicographicLe(a[1..], b[1..]) {
      LexicographicAddHead(a, b);
    }
  }

  lemma LexicographicDropHead(a: string, b: string)
    requires |a| > 0 && |b| > 0 && a[0] == b[0]
    requires LexicographicLe(a, b)
    ensures LexicographicLe(a[1..], b[1..])
  {
    var a', b' := a[1..], b[1..];
    if |a| <= |b| && a == b[..|a|] {
      assert a' == b'[..|a'|];
    } else {
      var k :| 0 <= k < |a| && k < |b| && a[..k] == b[..k] && a[k] < b[k];
      assert k > 0;
      assert a'[..k - 1] == b'[..k - 1] by {
        assert a'[..k - 1] == a[..k][1..];
        assert b'[..k - 1] == b[..k][1..];
      }
      assert a'[k - 1] < b'[k - 1];
    }
  }

  lemma LexicographicAddHead(a: string, b: string)
    requires |a| > 0 && |b| > 0 && a[0] == b[0]
    requires LexicographicLe(a[1..], b[1..])
    ensures LexicographicLe(a, b)
  {
    var a', b' := a[1..], b[1..];
    if |a'| <= |b'| && a' == b'[..|a'|] {
      assert a == [a[0]] + a';
      assert b[..|a|] == [b[0]] + b'[..|a'|];
    } else {
      var k :| 0 <= k < |a'| && k < |b'| && a'[..k] == b'[..k] && a'[k] < b'[k];
      assert a[..k + 1] == [a[0]] + a'[..k];
      assert b[..k + 1] == [b[0]] + b'[..k];
      assert a[k + 1] < b[k + 1];
    }
  }

  /** Every string is in order with itself. */
  lemma {:induction false} TextLeReflexive(a: string)
    ensures TextLe(a, a)
    decreases |a|
  {
    if |a| > 0 {
      TextLeReflexive(a[1..]);
    }
  }

  lemma {:induction false} TextLeTotal(a: string, b: string)
    ensures TextLe(a, b) || TextLe(b, a)
    decreases |a|
  {
    if |a| > 0 && |b| > 0 && a[0] == b[0] {
      TextLeTotal(a[1..], b[1..]);
    }
  }

  lemma {:induction false} TextLeTransitive(a: string, b: string, c: string)
    requires TextLe(a, b) && TextLe(b, c)
    ensures TextLe(a, c)
    decreases |a|
  {
    if |a| > 0 && a[0] == b[0] && b[0] == c[0] {
      TextLeTransitive(a[1..], b[1..], c[1..]);
    }
  }

  lemma {:induction false} TextLeAntisymmetric(a: string, b: string)
    requires TextLe(a, b) && TextLe(b, a)
    ensures a == b
    decreases |a|
  {
    if |a| > 0 {
      TextLeAntisymmetric(a[1..], b[1..]);
      assert a == [a[0]] + a[1..];
      assert b == [b[0]] + b[1..];
    }
  }

  /** `sep.join(xs)`. */
  function Join(xs: seq<string>, sep: string): (r: string)
    ensures |xs| == 0 ==> r == ""
    ensures |xs| == 1 ==> r == xs[0]
    ensures |xs| >= 1 ==> |xs[0]| <= |r| && r[..|xs[0]|] == xs[0]
  {
    if |xs| == 0 then ""
    else if |xs| == 1 then xs[0]
    else xs[0] + sep + Join(xs[1..], sep)
  }

  /** The total length of the strings in `xs`. */
  function TotalLength(xs: seq<string>): nat {
    if |xs| == 0 then 0 else |xs[0]| + TotalLength(xs[1..])
  }

  /** A joined string holds every piece and one separator between neighbours. */
  lemma {:induction false} JoinLength(xs: seq<string>, sep: string)
    requires |xs| >= 1
    ensures |Join(xs, sep)| == TotalLength(xs) + |sep| * (|xs| - 1)
  {
    if |xs| > 1 {
      JoinLength(xs[1..], sep);
    }
  }

  /** Joining one more piece appends the separator and that piece. */
  lemma {:induction false} JoinAppend(xs: seq<string>, y: string, sep: string)
    requires |xs| >= 1
    ensures Join(xs + [y], sep) == Join(xs, sep) + sep + y
  {
    if |xs| == 1 {
      assert (xs + [y])[1..] == [y];
    } else {
      assert (xs + [y])[1..] == xs[1..] + [y];
      JoinAppend(xs[1..], y, sep);
    }
  }

  /** `c.lower()` for an ASCII letter; every other character is kept. */
  function LowerChar(c: char): char {
    if 'A' <= c <= 'Z' then (c as int - 'A' as int + 'a' as int) as char else c
  }

  /** `s.lower()` restricted to the ASCII letters (all the text it is applied to). */
  function LowerAscii(s: string): (r: string)
    ensures |r| == |s|
    ensures forall i :: 0 <= i < |s| ==> r[i] == LowerChar(s[i])
    ensures forall i :: 0 <= i < |r| ==> !('A' <= r[i] <= 'Z')
  {
    if |s| == 0 then "" else [LowerChar(s[0])] + LowerAscii(s[1..])
  }

  /** `s.replace(x, y)` for single characters `x` and `y`. */
  function ReplaceChar(s: string, x: char, y: char): (r: string)
    ensures |r| == |s|
    ensures forall i :: 0 <= i < |s| ==> r[i] == (if s[i] == x then y else s[i])
    ensures x != y ==> forall i :: 0 <= i < |r| ==> r[i] != x
  {
    if |s| == 0 then "" else [if s[0] == x then y else s[0]] + ReplaceChar(s[1..], x, y)
  }
}

=== FILE: wrappers.dfy ===
/** Failure-carrying datatypes shared by the whole model: an absent value
    (a missing dictionary key, a SQL NULL) and an operation that either
    succeeds or raises. */
module Wrappers {

  /** A value that may be absent. */
  datatype Option<+T> = None | Some(value: T) {
    /** The carried value, or `default` when absent (Python's `dict.get(k, default)`). */
    function GetOr(default: T): T {
      match this
      case Some(v) => v
      case None => default
    }
  }

  /** The outcome of an operation that may raise instead of returning. */
  datatype Result<+T, +E> = Success(value: T) | Failure(error: E)
}
